=== FILE: README.md ===
# qbo-coda-sync, modelled in Dafny

qbo-coda-sync copies a studio's profit-and-loss figures from QuickBooks
Online into two Coda tables. It runs once a day and does the following:

- For every month from January 2020 up to the last complete month, it
  fetches that month's profit-and-loss report.
- It pulls named categories out of the report tree: Income, the four COGS
  sub-sections (payroll, supplies & materials, benefits, subcontractors)
  and the Expenses total.
- It maps those categories onto the monthly table's 22 columns.
- It updates the row whose `Month` reads "March, 2021" (for example), or
  inserts one when no such row exists.
- It then does the same, year by year from 2016 through the current year,
  for the yearly table. That pass recognises the Income, COGS and Expenses
  sections by their tags lower-cased, reads their totals and four named
  accounts (matched exactly), and treats a missing COGS section as
  contributing nothing.

The model covers all of this except the network, which becomes a parameter.

| file | module | what it holds |
|---|---|---|
| `results.dfy` | `Results` | `Option`, the `Fault` a run can stop with, and `Result` |
| `last_wins.dfy` | `LastWins` | writing keys into a JavaScript object one after another (`reduce`), and object spread |
| `text.dfy` | `Text` | template-literal rendering of numbers, `padStart`, ASCII `toLowerCase` |
| `calendar.dfy` | `Calendar` | `MONTH_NAMES`, the row label "Month, year", `getDaysInMonth`, the report date ranges |
| `report.dfy` | `Report` | the report tree, the group, sub-section and leaf lookups, flattening a section |
| `extract.dfy` | `Extract` | the monthly and yearly category extraction |
| `field_map.dfy` | `FieldMap` | the two column mappings and the row built from a category map |
| `upsert.dfy` | `Upsert` | the update-or-insert decision, its effect on a table, and runs of decisions against one snapshot |
| `periods.dfy` | `Periods` | the months and years the run visits |
| `sync.dfy` | `Sync` | one month's and one year's job, both loops, and the whole run |

The report fetch is the parameter `fetch(start_date, end_date)` of type
`Sync.Fetch`. `Sync.MonthReport` and `Sync.YearReport` request a period's
date range from it, and the period's job works on the answer. The current date is the pair `todayMonth`, `todayYear`.
`Sync.Run` is given two snapshots. The first is the monthly table's rows,
listed once before the monthly loop (index.js:308). The second is the
yearly table's rows, listed once after the monthly loop and before the
yearly loop (index.js:328).

An exception ends the whole run: a failed fetch, or reading a field of
something absent. It is modelled as the run stopping with a `Fault`. The
months already written stay written. A rejected write also throws; that
case is not modelled (see "Left out").

## Model

| member | source | states |
|---|---|---|
| LastWins.Fold | index.js:174-179 | no contract; the seeded `reduce` that writes each (label, amount) pair into the accumulator in order; `LastWins.FoldIsLatest` states it |
| LastWins.FoldIsLatest | index.js:174-179 | writing (label, amount) pairs into a seeded object holds a label iff the seed or some pair has it; its value is the last pair's for that label, or the seed's when no pair has it |
| LastWins.Merge | index.js:226-233 | no contract; the object spread `{...ms[0], ...ms[1], ...}`; `LastWins.MergeKeys` and `LastWins.MergeLastWins` state it |
| LastWins.MergeKeys | index.js:226-233 | the spread of several objects holds exactly the keys that some object holds |
| LastWins.MergeLastWins | index.js:226-233 | in a spread, a key takes its value from the last object that holds it |
| LastWins.MergeDisjointPreserves | index.js:281-287 | when the spread objects share no key, every object's every value survives the spread |
| Text.IntToString | index.js:131 | no contract; the `${n}` rendering of any integer, a minus sign before the digits of a negative one; `Text.NatToString` and `Text.IntToStringInjective` state its properties |
| Text.NatToString | index.js:57 | a number renders as a non-empty string of digits with no leading zero |
| Text.ParseNatToString | index.js:57 | reading the rendered digits back gives the number |
| Text.IntToStringInjective | index.js:131 | two integers that render alike are equal |
| Text.PadStart | index.js:57 | the padded string is at least as long as the width, ends with the original, and is filled in front |
| Text.LowerAscii | index.js:241 | no contract; `toLowerCase` on ASCII letters, the lowering of the tag in the yearly lookups at 241, 246 and 266; `Text.LowerAsciiSpec` states its properties |
| Text.LowerAsciiSpec | index.js:241 | lowering keeps the length and lowers each character on its own |
| Calendar.MonthName | index.js:20-33 | no contract; `MONTH_NAMES[month]`, the twelve English month names, and "undefined" outside 0-11 as the template literal renders a missing entry; `Calendar.MonthNameInjective` and `Calendar.MonthNameHasNoComma` state its properties |
| Calendar.MonthNameInjective | index.js:20-33 | the twelve month names are pairwise different |
| Calendar.MonthNameHasNoComma | index.js:20-33 | no month name contains a comma |
| Calendar.NameAndYearInjective | index.js:131 | "name, year" determines both name and year when names have no comma |
| Calendar.MonthLabel | index.js:131 | no contract; the row label `${MONTH_NAMES[month]}, ${year}`; `Calendar.MonthLabelInjective` states that it names one month of one year |
| Calendar.MonthLabelInjective | index.js:131 | two months' row labels are equal only for the same month of the same year |
| Calendar.DaysInMonth | index.js:50-52 | a month has 28 to 31 days; February has 29 exactly in leap years, counting years 0 to 99 as 1900 to 1999; April, June, September and November have 30; the others have 31 |
| Calendar.YearLength | index.js:50-52 | the twelve month lengths add up to 366 in a leap year and 365 otherwise |
| Calendar.PaddedMonth | index.js:57 | no contract; `${month + 1}`.padStart(2, '0'); `Calendar.PaddedMonthReadsBack` states its properties |
| Calendar.MonthlyRange | index.js:57-60 | no contract; the start and end dates of the monthly request; `Calendar.MonthlyRangeCoversMonth` states its properties |
| Calendar.YearlyRange | index.js:70-72 | no contract; the start and end dates of the yearly request; `Calendar.YearlyRangeSpansMonths` states its properties |
| Calendar.PaddedMonthReadsBack | index.js:57 | the zero-padded month number is two digits that read back as the month plus one |
| Calendar.MonthlyRangeCoversMonth | index.js:57-60 | a month's range starts on day 01 of that year and month, and ends on the day whose digits read back as the month's day count |
| Calendar.YearlyRangeSpansMonths | index.js:68-78 | a year's range starts where January's range starts and ends where December's range ends |
| Report.FirstIndex | index.js:173 | `find` over rows: nothing iff no row passes the test; otherwise the index of a row that passes, with no earlier row passing |
| Report.FindGroup | index.js:173 | finds the first top-level section whose group passes the test (exact, or lower-cased), and nothing iff no section passes |
| Report.ExactFoundIgnoringCase | index.js:241 | when the exact tag test finds a section, the lower-cased test with the lowered name finds one too, at the same position or earlier |
| Report.FindSubsection | index.js:185-186 | finds the first nested section whose total has the title, and nothing iff none has |
| Report.FindSubsectionUnguarded | index.js:203-204 | the benefits lookup fails iff a row without a total comes before any row whose total has the title; otherwise it finds what the guarded lookup finds |
| Report.FindLeaf | index.js:253 | holds at most the title; holds it iff some data row has that title, with the amount of the first such row |
| Report.LeafEntries | index.js:174-176 | succeeds iff every child is a data row, fails only for a nested child, and on success lists each child's (title, amount) in order |
| Report.Flatten | index.js:174-179 | succeeds iff the section has rows and a total and every child is a data row; fails for missing rows exactly when the rows are absent, and for a missing total exactly when rows are present but the total is not; its keys are the total's title and the children's titles; a child's amount survives unless a later child has its title; the total survives unless a child has its title |
| Extract.OptionalCategories | index.js:174-179 | an absent section gives the empty map, a present one its flattening |
| Extract.RequiredRows | index.js:186 | fails iff the section or its rows are absent, otherwise gives the rows |
| Extract.RequiredTotal | index.js:221-224 | fails iff the section or its total is absent, otherwise gives the one-entry map of the total |
| Extract.SubsectionParts | index.js:185-219 | succeeds iff every named COGS sub-section flattens, and then gives each flattening in order |
| Extract.FoundSubsectionHasTotal | index.js:185-218 | a sub-section found by its total's title has that total, so reading its seed never fails for a missing `Summary` |
| Extract.MonthlyCogsParts | index.js:182-219 | succeeds iff the unguarded benefits lookup succeeds and all four COGS sub-sections flatten; a total-less row before the benefits section makes it fail; on success gives the four flattenings in order |
| Extract.MonthlyParts | index.js:169-233 | succeeds iff Income flattens, COGS exists with rows and its parts succeed, and Expenses exists with a total; a missing COGS or Expenses section fails; on success gives Income (empty when absent), the four COGS parts, and the Expenses total |
| Extract.MonthlyCategories | index.js:226-233 | succeeds iff the parts do; holds exactly the keys of the six parts; each key has the amount of the last part (income, payroll, supplies, benefits, subcontractors, expenses) that holds it; the Expenses total, spread last, keeps its amount |
| Extract.SixPartKeys | index.js:226-233 | a label is in the spread of the six monthly parts iff one of the six holds it |
| Extract.MonthlyDisjointPreserved | index.js:226-233 | when the six parts share no key, each part's every amount reaches the monthly map |
| Extract.YearlyCogs | index.js:246-264 | a missing COGS section gives three empty maps; a present one succeeds iff it has rows and a total, and gives its total, the first profit-share leaf among its rows (nothing if there is none) and the first reinvestment leaf likewise |
| Extract.YearlyExpenses | index.js:266-279 | succeeds iff Expenses exists with a total and rows; holds the total's title and at most the two account names; an account name is in the map iff a leaf with that title exists or the total carries it; a found leaf's amount wins, otherwise the total keeps its amount |
| Extract.YearlyParts | index.js:241-287 | succeeds iff Income has a total, COGS (when present) has rows and a total, and Expenses has a total and rows; the five parts are the Income total, the COGS total, the expenses map, profit share and reinvestment |
| Extract.YearlyCategories | index.js:281-287 | succeeds iff the parts do; holds exactly the keys of the five parts; each key has the amount of the last part (income, cogs, expenses, profit share, reinvestment) that holds it |
| Extract.YearlyDisjointPreserved | index.js:281-287 | when the five parts share no key, each part's every amount reaches the yearly map |
| Extract.YearlyFindsMonthlySections | index.js:241-266 | the yearly names are the monthly names lowered, so every Income, COGS or Expenses section the monthly lookup finds, the yearly lookup finds too |
| Extract.FivePartKeys | index.js:281-287 | a label is in the spread of the five yearly parts iff one of the five holds it |
| FieldMap.BuildRow | index.js:132-137 | the row is the key cell followed by one cell per mapping, in order; a category that is absent or empty gives parseFloat of "0", and any other category gives parseFloat of its amount |
| FieldMap.AmountFor | index.js:153 | no contract (the same default is at index.js:134); the amount `parseFloat` reads for a category, with an absent or empty (falsy) amount replaced by '0'; `FieldMap.BuildRow` and `FieldMap.BuildRowReadsBack` state it per column |
| FieldMap.BuildRowReadsBack | index.js:132-137 | with distinct columns, the written row holds the key cell, each mapped column with its category's amount, and no other column |
| FieldMap.BuildRowWidth | index.js:132-137 | with distinct columns, the written row has one column per mapping plus the key column |
| FieldMap.MonthlyColumnsDistinct | index.js:90-118 | the 22 monthly columns are pairwise different and none is `Month` |
| FieldMap.YearlyColumnsDistinct | index.js:120-128 | the 7 yearly columns are pairwise different and none is `Year` |
| FieldMap.MonthlyRow | index.js:130-137 | no contract; the `Month` label cell followed by the monthly mapping's cells; `FieldMap.MonthlyRowReadsBack` states its contents |
| FieldMap.YearlyRow | index.js:149-156 | no contract; the numeric `Year` cell followed by the yearly mapping's cells; `FieldMap.YearlyRowReadsBack` states its contents |
| FieldMap.MonthlyRowReadsBack | index.js:130-137 | the monthly row writes the month's label into `Month`, each mapped column's amount, and 23 columns in all |
| FieldMap.YearlyRowReadsBack | index.js:149-156 | the yearly row writes the year as a number into `Year`, each mapped column's amount, and 8 columns in all |
| Upsert.FirstWithKey | index.js:139 | `rows.find` by the key column: nothing iff no row carries the key; otherwise the index of a row that carries it, with no earlier row carrying it |
| Upsert.Decide | index.js:139-144 | updates iff some snapshot row carries the key, and then the first such row, with the full cell list; otherwise inserts that list |
| Upsert.DecisionIgnoresValues | index.js:139-144 | whether to update, and which row, do not depend on the values written |
| Upsert.Apply | index.js:140-144 | an insert adds one row and an update none; rows other than the updated one are unchanged |
| Upsert.CountZero | index.js:139 | no row carries the key exactly when the count of rows carrying it is zero |
| Upsert.UpsertCount | index.js:139-144 | after an upsert some row carries the key; a missing key leaves exactly one row with it and adds one row, and an existing key leaves the count and size as they were |
| Upsert.UpsertIdempotent | index.js:158-164 | a second upsert of the same key updates, and adds no row; the row it updates is the one the first upsert updated or, when the first inserted, the appended row; that row then holds every cell the second upsert wrote |
| Upsert.StaleLookupUnaffected | index.js:139 | upserting one period leaves the lookup of every other period unchanged |
| Upsert.StaleRun | index.js:308 | deciding jobs against a fixed snapshot decides each job against that snapshot |
| Upsert.StaleSnapshotSuffices | index.js:319-324 | for jobs with distinct periods, deciding against the snapshot read at the start gives the same actions as re-reading the table before every job |
| Periods.MonthAt | index.js:320 | the month with a given ordinal is valid and has that ordinal |
| Periods.OrdinalInjective | index.js:321 | two valid months with the same ordinal are the same month |
| Periods.NextMonth | index.js:323 | the next month is valid and its ordinal is one more |
| Periods.LastMonthToSync | index.js:311-317 | the last month synced is valid and is the month before today's, wrapping from January to December of the year before |
| Periods.MonthsToSync | index.js:319-324 | the months visited number exactly as many as lie from January 2020 to the last month, the i-th being i months after January 2020 |
| Periods.MonthsContiguous | index.js:319-324 | the months visited start at January 2020, end at the last month, step one month at a time and never repeat; there are none iff the last month is before January 2020 |
| Periods.YearsToSync | index.js:330-334 | the years visited run from 2016 through the current year, none when the current year is earlier |
| Sync.MonthRowCarriesKey | index.js:131-137 | the monthly row writes its own month label into `Month` |
| Sync.YearRowCarriesKey | index.js:150-156 | the yearly row writes its own year into `Year` |
| Sync.MonthReport | index.js:55-66 | no contract; the profit-and-loss request for the month's range, answered by the `fetch` parameter; `Calendar.MonthlyRangeCoversMonth` states the range |
| Sync.YearReport | index.js:68-78 | no contract; the profit-and-loss request for the year's range, answered by the `fetch` parameter; `Calendar.YearlyRangeSpansMonths` states the range |
| Sync.MonthJob | index.js:169-236 | given the answer to the month's request, the job succeeds iff that answer is a report whose categories extract; it then carries the month's label as its key, has 23 cells, and is the monthly row of those categories |
| Sync.YearJob | index.js:238-290 | given the answer to the year's request, the job succeeds iff that answer is a report whose categories extract; it then carries the year as its key, has 8 cells, and is the yearly row of those categories |
| Sync.MonthJobs | index.js:319-324 | the jobs of successful months, in order |
| Sync.YearJobs | index.js:330-334 | the jobs of successful years, in order, one per year |
| Sync.MonthJobsDistinct | index.js:131 | distinct valid months give jobs whose keys name different periods, each carried by its cells |
| Sync.YearJobsDistinct | index.js:150 | distinct years give jobs whose keys name different periods, each carried by its cells |
| Sync.SyncMonths | index.js:319-324 | the monthly loop decides the visited months in order against the snapshot; it finishes with no fault iff it decided every month, and otherwise stops at the first failing month with that month's fault |
| Sync.SyncYears | index.js:330-334 | the yearly loop decides the visited years in order against the snapshot; it finishes with no fault iff it decided every year, and otherwise stops at the first failing year with that year's fault |
| Sync.MonthsPrefixDistinct | index.js:319-324 | any prefix of the visited months holds valid, pairwise different months |
| Sync.DecidedRunIsLive | index.js:319-324 | actions decided against the snapshot for jobs with distinct periods are the actions of re-reading the table before each job |
| Sync.MonthlyRunNeedsNoRefresh | index.js:306-324 | the months the loop decided all succeeded, and its actions are exactly those of re-reading the monthly table before every month |
| Sync.YearlyRunNeedsNoRefresh | index.js:326-334 | the years the loop decided all succeeded, and its actions are exactly those of re-reading the yearly table before every year |
| Sync.Run | index.js:298-343 | both loops decide against their snapshots; a monthly failure stops the run before any year; a fault is the failing period's own fault, that of the first month whose job fails or, when every month succeeded, of the first failing year; the run ends without fault iff every month and every year was decided |
| Sync.YearlyPartSources | index.js:241-279 | the yearly income part holds only the income total's title; the expenses part holds only the expenses total's title and the two account names |
| Sync.YearlyKeysWithoutCogs | index.js:246-287 | without a COGS section, every yearly category is the income total, the expenses total, or one of the two expense accounts |
| Sync.CategoryZeroWithoutCogs | index.js:246-287 | without a COGS section, a category that is not an expense account is written as 0 unless it is the income or expenses total's title |
| Sync.YearlyMissingCogsWritesZero | index.js:246-264 | without a COGS section, the Gross COGS, Profit Share Pool and Reinvestment columns are written, as 0 unless a total carries that category's title |
| Sync.NotAnExpenseAccount | index.js:120-128 | the Gross COGS, Profit Share Pool and Reinvestment categories are neither of the two expense accounts read from Expenses |

## Left out

- The QuickBooks client, the access-token refresh (index.js:80-88, 300), Coda's client and table lookups, Sentry, dotenv and console output are not modelled. The report fetch is a function parameter, and the tables' initial rows are parameters.
- A rejected access-token refresh is not modelled. It would end the run before any month.
- `async`/`await` is not modelled: every call runs to completion in program order, which is what the awaits enforce.
- `parseFloat` is not modelled numerically: `FieldMap.Value.Parsed(s)` stands for `parseFloat(s)`. The model tracks which text each column is parsed from, never the number.
- `new Date()` is not modelled: today's month and year are parameters. `Calendar.DaysInMonth` models `new Date(year, month, 0).getDate()` on its own, including the reading of years 0-99 as 1900-1999.
- `toLowerCase` is modelled on ASCII letters only. The names compared against are ASCII.
- Report rows whose `ColData` has fewer than two entries are not modelled; a data row always has a title and an amount. Keys such as `__proto__` are treated as ordinary keys.
- `Upsert.Apply`: Coda's `row.update` and `insertRows` are modelled as "overwrite the given columns" and "append one row with them". Coda's own behaviour, such as asynchronous insertion and column type coercion, is not part of this model.
- Every unchecked read of an absent field throws, and the model gives a `Fault` there with no fallback value. The monthly pass has three kinds of such reads, listed on the next three lines.
- Monthly `Summary` reads (`MissingSummary`, or `MissingSection` when the section itself is absent): the `Summary` of a found Income section (index.js:178), of the Expenses section (223), and of every COGS child that the benefits search visits before its match (204).
- Monthly `Rows.Row` reads (`MissingRows`, or `MissingSection` for an absent COGS section): the rows of a found Income section (index.js:174), of the COGS section (186), and of each found COGS sub-section (187, 196, 205, 214).
- Monthly `r.ColData[0]` reads inside a flattening (`NotALeaf`): a nested child among the rows of Income or of a found sub-section (index.js:175, 188, 197, 206, 215).
- In the yearly pass the unchecked reads are the totals of Income, COGS and Expenses (index.js:243, 263, 268) and the rows of COGS and Expenses (253, 271); each throws when absent, and the model gives a `Fault`.
- The top-level `data.Rows.Row` (index.js:173, 241) is always present in the model, because `Report.Report` always holds a row list. A report whose row list is empty stands nearest to a report without one: it fails too, with `MissingSection`, since the monthly pass then finds no COGS section and the yearly pass no Income section.
- The sub-section seeds at index.js:191, 200, 209 and 218 read a `Summary` too, but only of a section that its search found by that `Summary`, so they never throw.
- A month whose report has no COGS section throws at index.js:186 (`rawCOGSData.Rows.Row`), so that month fails and the run ends.
- A yearly report without a COGS section leaves the `cogs` object empty (index.js:246-264). The row builder's `|| '0'` (index.js:153) then writes the `Gross COGS` column as 0 (`Sync.YearlyMissingCogsWritesZero`).
- Sync.YearlyMissingCogsWritesZero: states "0, or a total carries the category's title". That is weaker than "0", because an income or expenses total whose title equals a COGS category would land in that column.
- Sync.Run: does not state the equality with re-reading the table directly. `Sync.MonthlyRunNeedsNoRefresh` and `Sync.YearlyRunNeedsNoRefresh` state it for the actions `Sync.Run` returns.
- Sync.Run: a rejected `update` or `insertRows` is not modelled. The source awaits both (index.js:141, 143, 161, 163), so a rejection would throw into the catch at index.js:337 and end the run at that period. The model assumes every write succeeds, and its "no fault iff every period was decided" covers fetch and extraction failures only.

=== FILE: calendar.dfy ===
/** Calendar arithmetic of the sync: month names and period labels, month
    lengths as `new Date(year, month, 0).getDate()` computes them, and the
    date ranges of the profit-and-loss requests. */
module Calendar {
  import opened Text

  const MonthNames: seq<string> := [
    "January", "February", "March", "April", "May", "June", "July",
    "August", "September", "October", "November", "December"
  ]

  /** `MONTH_NAMES[month]` with a 0-indexed month; outside the table the
      template literal renders the missing entry as "undefined". */
  function MonthName(month: int): string {
    if 0 <= month < 12 then MonthNames[month] else "undefined"
  }

  /** The label of a monthly row, `"<MonthName>, <year>"`. */
  function MonthLabel(month: int, year: int): string {
    MonthName(month) + ", " + IntToString(year)
  }

  predicate NoComma(s: string) {
    forall i :: 0 <= i < |s| ==> s[i] != ','
  }

  /** When two strings are each a comma-free head followed by a tail that
      starts with a comma, equal strings have equal heads and equal tails. */
  lemma SplitAtFirstComma(a: string, b: string, c: string, d: string)
    requires NoComma(a) && NoComma(c)
    requires |b| > 0 && b[0] == ',' && |d| > 0 && d[0] == ','
    requires a + b == c + d
    ensures a == c && b == d
  {
    assert a == (a + b)[..|a|];
    assert c == (c + d)[..|c|];
  }

  lemma MonthNameHasNoComma(month: int)
    requires 0 <= month < 12
    ensures NoComma(MonthName(month))
  {
    var name := MonthName(month);
    forall i | 0 <= i < |name| ensures name[i] != ',' {
      if month < 6 {
        assert name in {"January", "February", "March", "April", "May", "June"};
      } else {
        assert name in {"July", "August", "September", "October", "November", "December"};
      }
    }
  }

  /** The twelve month names are distinct. */
  lemma MonthNameInjective(m1: int, m2: int)
    requires 0 <= m1 < 12 && 0 <= m2 < 12
    requires MonthName(m1) == MonthName(m2)
    ensures m1 == m2
  {
  }

  /** A label splits into its name and a tail of ", " and the year. (A
      concatenation step for the verifier; it models nothing by itself.) */
  lemma LabelTail(n: string, y: int)
    ensures n + ", " + IntToString(y) == n + (", " + IntToString(y))
    ensures (", " + IntToString(y))[0] == ','
    ensures (", " + IntToString(y))[2..] == IntToString(y)
  {
  }

  /** A comma-free name followed by ", " and a year determines both parts. */
  lemma NameAndYearInjective(n1: string, y1: int, n2: string, y2: int)
    requires NoComma(n1) && NoComma(n2)
    requires n1 + ", " + IntToString(y1) == n2 + ", " + IntToString(y2)
    ensures n1 == n2 && y1 == y2
  {
    LabelTail(n1, y1);
    LabelTail(n2, y2);
    SplitAtFirstComma(n1, ", " + IntToString(y1), n2, ", " + IntToString(y2));
    IntToStringInjective(y1, y2);
  }

  /** Different months of the year, or different years, never share a label:
      a label names exactly one month. */
  lemma MonthLabelInjective(m1: int, y1: int, m2: int, y2: int)
    requires 0 <= m1 < 12 && 0 <= m2 < 12
    requires MonthLabel(m1, y1) == MonthLabel(m2, y2)
    ensures m1 == m2 && y1 == y2
  {
    MonthNameHasNoComma(m1);
    MonthNameHasNoComma(m2);
    NameAndYearInjective(MonthName(m1), y1, MonthName(m2), y2);
    MonthNameInjective(m1, m2);
  }

  predicate IsLeapYear(year: int) {
    year % 4 == 0 && (year % 100 != 0 || year % 400 == 0)
  }

  /** `new Date(year, …)` reads the years 0 through 99 as 1900 through 1999. */
  function DateYear(year: int): int {
    if 0 <= year <= 99 then 1900 + year else year
  }

  /** Days of a 1-indexed month in a Gregorian year. */
  function MonthLength(month: int, year: int): int
    requires 1 <= month <= 12
  {
    if month == 2 then (if IsLeapYear(year) then 29 else 28)
    else if month == 4 || month == 6 || month == 9 || month == 11 then 30
    else 31
  }

  /** `getDaysInMonth(month, year)`, 1-indexed month: day 0 of the following
      month is the last day of this one, and a month outside 1..12 rolls over
      into a neighbouring year as `Date` does. */
  function DaysInMonth(month: int, year: int): (days: int)
    ensures 28 <= days <= 31
    ensures month == 2 ==> (days == 29 <==> IsLeapYear(DateYear(year)))
    ensures month == 2 ==> days == 28 || days == 29
    ensures month in {4, 6, 9, 11} ==> days == 30
    ensures month in {1, 3, 5, 7, 8, 10, 12} ==> days == 31
  {
    var t := 12 * DateYear(year) + month - 1;
    MonthLength(t % 12 + 1, t / 12)
  }

  /** The twelve months of a year add up to 365 days, or 366 in a leap year. */
  lemma YearLength(year: int)
    ensures DaysInMonth(1, year) + DaysInMonth(2, year) + DaysInMonth(3, year)
          + DaysInMonth(4, year) + DaysInMonth(5, year) + DaysInMonth(6, year)
          + DaysInMonth(7, year) + DaysInMonth(8, year) + DaysInMonth(9, year)
          + DaysInMonth(10, year) + DaysInMonth(11, year) + DaysInMonth(12, year)
          == if IsLeapYear(DateYear(year)) then 366 else 365
  {
  }

  /** The month part of a monthly request date: the 1-indexed month padded to
      two digits. */
  function PaddedMonth(month: int): string {
    PadStart(IntToString(month + 1), 2, '0')
  }

  /** The start and end dates of the report request for a 0-indexed month. */
  function MonthlyRange(month: int, year: int): (string, string) {
    var prefix := IntToString(year) + "-" + PaddedMonth(month) + "-";
    (prefix + "01", prefix + IntToString(DaysInMonth(month + 1, year)))
  }

  /** The start and end dates of the report request for a whole year. */
  function YearlyRange(year: int): (string, string) {
    (IntToString(year) + "-01-01", IntToString(year) + "-12-31")
  }

  /** A two-character digit string reads as tens and units. */
  lemma ParseTwoDigits(s: string)
    requires |s| == 2 && AllDigits(s)
    ensures ParseDigits(s) == 10 * DigitValue(s[0]) + DigitValue(s[1])
  {
    assert s[..1][..0] == [];
    assert ParseDigits(s[..1]) == ParseDigits(s[..1][..0]) * 10 + DigitValue(s[0]);
    assert ParseDigits(s) == ParseDigits(s[..1]) * 10 + DigitValue(s[1]);
  }

  /** A one-digit month number is padded with a leading zero. */
  lemma PadOneDigit(n: nat)
    requires 1 <= n < 10
    ensures PadStart(IntToString(n), 2, '0') == ['0', DigitChar(n)]
  {
    assert IntToString(n) == [DigitChar(n)];
  }

  /** A two-digit month number is left as it is. */
  lemma PadTwoDigits(n: nat)
    requires 10 <= n < 13
    ensures PadStart(IntToString(n), 2, '0') == [DigitChar(1), DigitChar(n - 10)]
  {
    assert IntToString(n) == NatToString(1) + [DigitChar(n - 10)];
  }

  /** For a real month, the padded month has two digits that read back as
      the 1-indexed month. */
  lemma PaddedMonthReadsBack(month: int)
    requires 0 <= month < 12
    ensures |PaddedMonth(month)| == 2 && AllDigits(PaddedMonth(month))
    ensures ParseDigits(PaddedMonth(month)) == month + 1
  {
    if month + 1 < 10 {
      PadOneDigit(month + 1);
    } else {
      PadTwoDigits(month + 1);
    }
    ParseTwoDigits(PaddedMonth(month));
  }

  /** The monthly request covers the month from its first to its last day:
      both dates start `<year>-<MM>-`, where MM has two digits that read back
      as the 1-indexed month; the start day is 01 and the end day reads back
      as the month's length. */
  lemma MonthlyRangeCoversMonth(month: int, year: int)
    requires 0 <= month < 12
    ensures var prefix := IntToString(year) + "-" + PaddedMonth(month) + "-";
            var end := MonthlyRange(month, year).1;
            && MonthlyRange(month, year).0 == prefix + "01"
            && |end| > |prefix| && end[..|prefix|] == prefix
            && AllDigits(end[|prefix|..])
            && ParseDigits(end[|prefix|..]) == DaysInMonth(month + 1, year)
    ensures |PaddedMonth(month)| == 2 && AllDigits(PaddedMonth(month))
    ensures ParseDigits(PaddedMonth(month)) == month + 1
  {
    PaddedMonthReadsBack(month);
    var days := DaysInMonth(month + 1, year);
    var prefix := IntToString(year) + "-" + PaddedMonth(month) + "-";
    var end := MonthlyRange(month, year).1;
    assert end == prefix + NatToString(days);
    assert end[|prefix|..] == NatToString(days);
    ParseNatToString(days);
  }

  lemma PaddedJanuaryDecember()
    ensures PaddedMonth(0) == "01" && PaddedMonth(11) == "12"
  {
    assert IntToString(1) == ['1'];
    assert IntToString(12) == NatToString(1) + [DigitChar(2)];
  }

  lemma DecemberEndDay(year: int)
    ensures IntToString(DaysInMonth(12, year)) == "31"
  {
    assert IntToString(31) == NatToString(3) + [DigitChar(1)];
  }

  lemma JanuaryStart(year: int)
    ensures MonthlyRange(0, year).0 == IntToString(year) + "-" + "01" + "-" + "01"
  {
    PaddedJanuaryDecember();
  }

  lemma DecemberEnd(year: int)
    ensures MonthlyRange(11, year).1 == IntToString(year) + "-" + "12" + "-" + "31"
  {
    PaddedJanuaryDecember();
    DecemberEndDay(year);
  }

  /** Regrouping the yearly range's literals; a concatenation step for the
      verifier that models nothing by itself. */
  lemma AppendDashes(y: string)
    ensures y + "-" + "01" + "-" + "01" == y + "-01-01"
    ensures y + "-" + "12" + "-" + "31" == y + "-12-31"
  {
  }

  /** The yearly request runs from the first day of the year's January
      request to the last day of its December request. */
  lemma YearlyRangeSpansMonths(year: int)
    ensures YearlyRange(year).0 == MonthlyRange(0, year).0
    ensures YearlyRange(year).1 == MonthlyRange(11, year).1
  {
    JanuaryStart(year);
    DecemberEnd(year);
    AppendDashes(IntToString(year));
  }
}

=== FILE: extract.dfy ===
/** Category extraction: which sections of a monthly or a yearly report are
    read, which of them must be present, and the order in which their
    category maps are merged. */
module Extract {
  import opened Results
  import opened Report
  import Text
  import LastWins

  const PayrollTotal := "Total [SC] Payroll"
  const SuppliesTotal := "Total [SC] Supplies & Materials"
  const BenefitsTotal := "Total [SC] Benefits, Contributions & Tax"
  const SubcontractorsTotal := "Total [SC] Subcontractors"
  const ProfitShareAccount := "[SC] Profit Share, Bonuses & Misc"
  const ReinvestmentAccount := "[SC] Reinvestment"
  const CarbonOffsetsAccount := "[SC] Carbon Offsets"
  const CharitableDonationsAccount := "[SC] Charitable Donations"

  /** A section that may be missing: its flattening, or no categories. */
  function OptionalCategories(found: Option<Section>): (r: Result<CategoryMap>)
    ensures found.None? ==> r == Ok(map[])
    ensures found.Some? ==> r == Flatten(found.value)
  {
    match found
    case None => Ok(map[])
    case Some(s) => Flatten(s)
  }

  /** The children of a section the code dereferences without a check. */
  function RequiredRows(found: Option<Section>, group: string): (r: Result<seq<Row>>)
    ensures r.Ok? <==> found.Some? && found.value.rows.Some?
    ensures r.Ok? ==> r.value == found.value.rows.value
  {
    match found
    case None => Err(MissingSection(group))
    case Some(s) => if s.rows.None? then Err(MissingRows) else Ok(s.rows.value)
  }

  /** `{[s.Summary.ColData[0].value]: s.Summary.ColData[1].value}` for a
      section the code dereferences without a check. */
  function RequiredTotal(found: Option<Section>, group: string): (r: Result<CategoryMap>)
    ensures r.Ok? <==> found.Some? && found.value.summary.Some?
    ensures r.Ok? ==> r.value == map[found.value.summary.value.title := found.value.summary.value.amount]
  {
    match found
    case None => Err(MissingSection(group))
    case Some(s) =>
      match s.summary
      case None => Err(MissingSummary)
      case Some(total) => Ok(map[total.title := total.amount])
  }

  /** The totals naming the four COGS sub-sections, in merge order. */
  const CogsTotals := [PayrollTotal, SuppliesTotal, BenefitsTotal, SubcontractorsTotal]

  /** The category maps of the sub-sections with the given totals, in order;
      a missing sub-section contributes no categories. */
  function SubsectionParts(cogs: seq<Row>, totals: seq<string>): (r: Result<seq<CategoryMap>>)
    ensures r.Ok? <==> forall i :: 0 <= i < |totals| ==> OptionalCategories(FindSubsection(cogs, totals[i])).Ok?
    ensures r.Ok? ==> |r.value| == |totals|
                      && forall i :: 0 <= i < |totals| ==> OptionalCategories(FindSubsection(cogs, totals[i])) == Ok(r.value[i])
  {
    if |totals| == 0 then Ok([])
    else
      var first :- OptionalCategories(FindSubsection(cogs, totals[0]));
      var rest :- SubsectionParts(cogs, totals[1..]);
      Ok([first] + rest)
  }

  /** A COGS sub-section is found by its total, so the seed its flattening
      reads from that total is always present: flattening a found
      sub-section never fails for a missing `Summary`. */
  lemma FoundSubsectionHasTotal(cogs: seq<Row>, title: string)
    requires FindSubsection(cogs, title).Some?
    ensures FindSubsection(cogs, title).value.summary.Some?
    ensures FindSubsection(cogs, title).value.summary.value.title == title
    ensures Flatten(FindSubsection(cogs, title).value) != Err(MissingSummary)
  {
  }

  /** The four COGS sub-section maps of a monthly report, in merge order:
      payroll, supplies, benefits, subcontractors. Each may be missing; the
      benefits search reads every child's `Summary` until it matches, so a
      child without one before the match throws. */
  function MonthlyCogsParts(cogs: seq<Row>): (r: Result<seq<CategoryMap>>)
    ensures r.Ok? <==> && FindSubsectionUnguarded(cogs, BenefitsTotal).Ok?
                       && forall i :: 0 <= i < 4 ==> OptionalCategories(FindSubsection(cogs, CogsTotals[i])).Ok?
    ensures (exists i :: 0 <= i < |cogs| && !HasSummary(cogs[i])
               && forall j :: 0 <= j < i ==> !HasSummaryLabel(cogs[j], BenefitsTotal))
            ==> r.Err?
    ensures r.Ok? ==> |r.value| == 4
                      && forall i :: 0 <= i < 4 ==> OptionalCategories(FindSubsection(cogs, CogsTotals[i])) == Ok(r.value[i])
  {
    assert CogsTotals[..2] == [PayrollTotal, SuppliesTotal];
    assert CogsTotals[2..] == [BenefitsTotal, SubcontractorsTotal];
    var first :- SubsectionParts(cogs, CogsTotals[..2]);
    var _ :- FindSubsectionUnguarded(cogs, BenefitsTotal);
    var rest :- SubsectionParts(cogs, CogsTotals[2..]);
    Ok(first + rest)
  }

  /** The six monthly category maps in merge order: income, the four COGS
      sub-sections, expenses. Income may be missing; COGS and Expenses may
      not, and of Expenses only the total is read. */
  function MonthlyParts(report: Report): (r: Result<seq<CategoryMap>>)
    ensures r.Ok? <==>
              var cogs := FindGroup(report.rows, Exact("COGS"));
              var expenses := FindGroup(report.rows, Exact("Expenses"));
              && OptionalCategories(FindGroup(report.rows, Exact("Income"))).Ok?
              && cogs.Some? && cogs.value.rows.Some? && MonthlyCogsParts(cogs.value.rows.value).Ok?
              && expenses.Some? && expenses.value.summary.Some?
    ensures r.Ok? ==> |r.value| == 6
    ensures FindGroup(report.rows, Exact("COGS")).None? ==> r.Err?
    ensures FindGroup(report.rows, Exact("Expenses")).None? ==> r.Err?
    ensures r.Ok? ==> FindGroup(report.rows, Exact("COGS")).value.rows.Some?
    ensures r.Ok? ==> MonthlyCogsParts(FindGroup(report.rows, Exact("COGS")).value.rows.value) == Ok(r.value[1..5])
    ensures r.Ok? && FindGroup(report.rows, Exact("Income")).None? ==> r.value[0] == map[]
    ensures r.Ok? && FindGroup(report.rows, Exact("Income")).Some?
            ==> Flatten(FindGroup(report.rows, Exact("Income")).value) == Ok(r.value[0])
    ensures r.Ok? ==>
              var total := FindGroup(report.rows, Exact("Expenses")).value.summary;
              total.Some? && r.value[5] == map[total.value.title := total.value.amount]
  {
    var income :- OptionalCategories(FindGroup(report.rows, Exact("Income")));
    var cogs :- RequiredRows(FindGroup(report.rows, Exact("COGS")), "COGS");
    var cogsParts :- MonthlyCogsParts(cogs);
    var expenses :- RequiredTotal(FindGroup(report.rows, Exact("Expenses")), "Expenses");
    var parts := [income] + cogsParts + [expenses];
    assert parts[1..5] == cogsParts;
    Ok(parts)
  }

  /** The monthly category map: the six parts spread in order, so it holds
      every category any part holds, each with the amount of the last part
      that holds it; the Expenses total, written last, always keeps its
      amount. */
  function MonthlyCategories(report: Report): (r: Result<CategoryMap>)
    ensures r.Ok? <==> MonthlyParts(report).Ok?
    ensures r.Ok? ==> var parts := MonthlyParts(report).value;
              forall k :: k in r.value <==> || k in parts[0] || k in parts[1] || k in parts[2]
                                            || k in parts[3] || k in parts[4] || k in parts[5]
    ensures r.Ok? ==> var parts := MonthlyParts(report).value;
              forall i: nat, k :: LastWins.LastIn(parts, i, k) ==> k in r.value && r.value[k] == parts[i][k]
    ensures r.Ok? ==>
              var total := FindGroup(report.rows, Exact("Expenses")).value.summary.value;
              total.title in r.value && r.value[total.title] == total.amount
  {
    var parts :- MonthlyParts(report);
    var total := FindGroup(report.rows, Exact("Expenses")).value.summary.value;
    LastWins.MergeLastWins(parts, 5, total.title);
    assert forall k :: k in LastWins.Merge(parts) <==> || k in parts[0] || k in parts[1] || k in parts[2]
                                                       || k in parts[3] || k in parts[4] || k in parts[5] by {
      forall k ensures k in LastWins.Merge(parts) <==> || k in parts[0] || k in parts[1] || k in parts[2]
                                                       || k in parts[3] || k in parts[4] || k in parts[5] {
        SixPartKeys(parts, k);
      }
    }
    forall i: nat, k | LastWins.LastIn(parts, i, k)
      ensures k in LastWins.Merge(parts) && LastWins.Merge(parts)[k] == parts[i][k]
    {
      LastWins.MergeLastWins(parts, i, k);
    }
    Ok(LastWins.Merge(parts))
  }

  /** With parts whose labels do not overlap, the monthly map keeps every
      part's every amount unchanged. */
  lemma MonthlyDisjointPreserved(report: Report, i: nat, k: string)
    requires MonthlyParts(report).Ok?
    requires LastWins.PairwiseDisjoint(MonthlyParts(report).value)
    requires i < 6 && k in MonthlyParts(report).value[i]
    ensures MonthlyCategories(report).Ok?
    ensures k in MonthlyCategories(report).value
    ensures MonthlyCategories(report).value[k] == MonthlyParts(report).value[i][k]
  {
    LastWins.MergeDisjointPreserves(MonthlyParts(report).value, i, k);
  }

  /** COGS of a yearly report, when present: its total, and the first
      profit-share and reinvestment leaves among its children. A missing
      COGS section contributes nothing. */
  function YearlyCogs(found: Option<Section>): (r: Result<(CategoryMap, CategoryMap, CategoryMap)>)
    ensures found.None? ==> r == Ok((map[], map[], map[]))
    ensures found.Some? ==> (r.Ok? <==> found.value.rows.Some? && found.value.summary.Some?)
    ensures found.Some? && r.Ok? ==>
              var s := found.value;
              && r.value.0 == map[s.summary.value.title := s.summary.value.amount]
              && r.value.1 == FindLeaf(s.rows.value, ProfitShareAccount)
              && r.value.2 == FindLeaf(s.rows.value, ReinvestmentAccount)
              && r.value.1.Keys <= {ProfitShareAccount}
              && r.value.2.Keys <= {ReinvestmentAccount}
  {
    match found
    case None => Ok((map[], map[], map[]))
    case Some(s) =>
      if s.rows.None? then Err(MissingRows)
      else
        var profitShare := FindLeaf(s.rows.value, ProfitShareAccount);
        var reinvestment := FindLeaf(s.rows.value, ReinvestmentAccount);
        match s.summary
        case None => Err(MissingSummary)
        case Some(total) => Ok((map[total.title := total.amount], profitShare, reinvestment))
  }

  /** Expenses of a yearly report: its total, then the first carbon-offsets
      and the first charitable-donations leaves. The total is read before the
      children, and both must be present. */
  function YearlyExpenses(found: Option<Section>): (r: Result<CategoryMap>)
    ensures r.Ok? <==> found.Some? && found.value.summary.Some? && found.value.rows.Some?
    ensures r.Ok? ==>
              var total := found.value.summary.value;
              var rows := found.value.rows.value;
              && r.value.Keys <= {total.title, CarbonOffsetsAccount, CharitableDonationsAccount}
              && total.title in r.value
              && (total.title !in FindLeaf(rows, CarbonOffsetsAccount)
                  && total.title !in FindLeaf(rows, CharitableDonationsAccount)
                  ==> r.value[total.title] == total.amount)
              && (CarbonOffsetsAccount in r.value <==>
                    CarbonOffsetsAccount in FindLeaf(rows, CarbonOffsetsAccount) || total.title == CarbonOffsetsAccount)
              && (CharitableDonationsAccount in r.value <==>
                    CharitableDonationsAccount in FindLeaf(rows, CharitableDonationsAccount) || total.title == CharitableDonationsAccount)
              && (CarbonOffsetsAccount in FindLeaf(rows, CarbonOffsetsAccount) ==>
                    && CarbonOffsetsAccount in r.value
                    && r.value[CarbonOffsetsAccount] == FindLeaf(rows, CarbonOffsetsAccount)[CarbonOffsetsAccount])
              && (CharitableDonationsAccount in FindLeaf(rows, CharitableDonationsAccount) ==>
                    && CharitableDonationsAccount in r.value
                    && r.value[CharitableDonationsAccount] == FindLeaf(rows, CharitableDonationsAccount)[CharitableDonationsAccount])
  {
    var total :- RequiredTotal(found, "expenses");
    var rows :- RequiredRows(found, "expenses");
    Ok(total + FindLeaf(rows, CarbonOffsetsAccount) + FindLeaf(rows, CharitableDonationsAccount))
  }

  /** The five yearly category maps in merge order: income, cogs, expenses,
      profit share, reinvestment. Income and Expenses (matched ignoring
      case) must be present with a total; COGS may be missing. The expenses
      map adds the first carbon-offsets and charitable-donations leaves. */
  function YearlyParts(report: Report): (r: Result<seq<CategoryMap>>)
    ensures r.Ok? <==>
              var income := FindGroup(report.rows, IgnoringCase("income"));
              var cogs := FindGroup(report.rows, IgnoringCase("cogs"));
              var expenses := FindGroup(report.rows, IgnoringCase("expenses"));
              && income.Some? && income.value.summary.Some?
              && (cogs.Some? ==> cogs.value.rows.Some? && cogs.value.summary.Some?)
              && expenses.Some? && expenses.value.summary.Some? && expenses.value.rows.Some?
    ensures r.Ok? ==> |r.value| == 5
    ensures r.Ok? ==>
              var income := FindGroup(report.rows, IgnoringCase("income")).value.summary.value;
              r.value[0] == map[income.title := income.amount]
    ensures r.Ok? ==> YearlyCogs(FindGroup(report.rows, IgnoringCase("cogs"))) == Ok((r.value[1], r.value[3], r.value[4]))
    ensures r.Ok? ==> YearlyExpenses(FindGroup(report.rows, IgnoringCase("expenses"))) == Ok(r.value[2])
  {
    var income :- RequiredTotal(FindGroup(report.rows, IgnoringCase("income")), "income");
    var cogsParts :- YearlyCogs(FindGroup(report.rows, IgnoringCase("cogs")));
    var expenses :- YearlyExpenses(FindGroup(report.rows, IgnoringCase("expenses")));
    Ok([income, cogsParts.0, expenses, cogsParts.1, cogsParts.2])
  }

  /** The yearly category map: the five parts spread in order, so it holds
      every category any part holds, each with the amount of the last part
      that holds it. */
  function YearlyCategories(report: Report): (r: Result<CategoryMap>)
    ensures r.Ok? <==> YearlyParts(report).Ok?
    ensures r.Ok? ==> var parts := YearlyParts(report).value;
              forall k :: k in r.value <==> || k in parts[0] || k in parts[1] || k in parts[2]
                                            || k in parts[3] || k in parts[4]
    ensures r.Ok? ==> var parts := YearlyParts(report).value;
              forall i: nat, k :: LastWins.LastIn(parts, i, k) ==> k in r.value && r.value[k] == parts[i][k]
  {
    var parts :- YearlyParts(report);
    assert forall k :: k in LastWins.Merge(parts) <==> || k in parts[0] || k in parts[1] || k in parts[2]
                                                       || k in parts[3] || k in parts[4] by {
      forall k ensures k in LastWins.Merge(parts) <==> || k in parts[0] || k in parts[1] || k in parts[2]
                                                       || k in parts[3] || k in parts[4] {
        FivePartKeys(parts, k);
      }
    }
    forall i: nat, k | LastWins.LastIn(parts, i, k)
      ensures k in LastWins.Merge(parts) && LastWins.Merge(parts)[k] == parts[i][k]
    {
      LastWins.MergeLastWins(parts, i, k);
    }
    Ok(LastWins.Merge(parts))
  }

  /** With parts whose labels do not overlap, the yearly map keeps every
      part's every amount unchanged. */
  lemma YearlyDisjointPreserved(report: Report, i: nat, k: string)
    requires YearlyParts(report).Ok?
    requires LastWins.PairwiseDisjoint(YearlyParts(report).value)
    requires i < 5 && k in YearlyParts(report).value[i]
    ensures YearlyCategories(report).Ok?
    ensures k in YearlyCategories(report).value
    ensures YearlyCategories(report).value[k] == YearlyParts(report).value[i][k]
  {
    LastWins.MergeDisjointPreserves(YearlyParts(report).value, i, k);
  }

  /** The keys of a spread of six maps, spelled out. */
  lemma SixPartKeys(parts: seq<CategoryMap>, k: string)
    requires |parts| == 6
    ensures k in LastWins.Merge(parts) <==> || k in parts[0] || k in parts[1] || k in parts[2]
                                            || k in parts[3] || k in parts[4] || k in parts[5]
  {
    LastWins.MergeKeys(parts, k);
  }

  /** The keys of a spread of five maps, spelled out. */
  lemma FivePartKeys(parts: seq<CategoryMap>, k: string)
    requires |parts| == 5
    ensures k in LastWins.Merge(parts) <==> || k in parts[0] || k in parts[1] || k in parts[2]
                                            || k in parts[3] || k in parts[4]
  {
    LastWins.MergeKeys(parts, k);
  }

  /** The yearly sync's section names are the monthly sync's names lowered,
      so every section the monthly sync finds is found by the yearly sync
      too (possibly an earlier one whose tag differs only in case). */
  lemma YearlyFindsMonthlySections(report: Report)
    ensures Text.LowerAscii("Income") == "income"
    ensures Text.LowerAscii("COGS") == "cogs"
    ensures Text.LowerAscii("Expenses") == "expenses"
    ensures FindGroup(report.rows, Exact("Income")).Some? ==> FindGroup(report.rows, IgnoringCase("income")).Some?
    ensures FindGroup(report.rows, Exact("COGS")).Some? ==> FindGroup(report.rows, IgnoringCase("cogs")).Some?
    ensures FindGroup(report.rows, Exact("Expenses")).Some? ==> FindGroup(report.rows, IgnoringCase("expenses")).Some?
  {
    LowersTo("Income", "income");
    LowersTo("COGS", "cogs");
    LowersTo("Expenses", "expenses");
    if FindGroup(report.rows, Exact("Income")).Some? {
      ExactFoundIgnoringCase(report.rows, "Income");
    }
    if FindGroup(report.rows, Exact("COGS")).Some? {
      ExactFoundIgnoringCase(report.rows, "COGS");
    }
    if FindGroup(report.rows, Exact("Expenses")).Some? {
      ExactFoundIgnoringCase(report.rows, "Expenses");
    }
  }

  /** Lowering a name character by character. */
  lemma LowersTo(s: string, t: string)
    requires |s| == |t| && forall i :: 0 <= i < |s| ==> Text.LowerChar(s[i]) == t[i]
    ensures Text.LowerAscii(s) == t
  {
    Text.LowerAsciiSpec(s);
  }
}

=== FILE: field_map.dfy ===
/** The field mapper: the two static column-to-category tables and the
    ordered row of (column, value) cells built from a category map. */
module FieldMap {
  import opened Results
  import opened Report
  import opened Calendar
  import LastWins

  /** A cell value: text, an integer, or the number `parseFloat` reads from
      the given text (floating-point parsing itself is not modelled). */
  datatype Value = Text(s: string) | Number(n: int) | Parsed(source: string)

  /** One `{ column, value }` pair of a row. */
  datatype Cell = Cell(column: string, value: Value)

  /** One entry of a mapping table: destination column, source category. */
  datatype Mapping = Mapping(column: string, category: string)

  /** `MonthlyMappings`, in declaration order. */
  const MonthlyMappings: seq<Mapping> := [
    Mapping("Gross Revenue", "Total Income"),
    Mapping("Gross Expenses", "Total Expenses"),
    Mapping("Gross Payroll", "Total [SC] Payroll"),
    Mapping("Gross Benefits", "Total [SC] Benefits, Contributions & Tax"),
    Mapping("Gross Subcontractors", "Total [SC] Subcontractors"),
    Mapping("Sanctu Revenue", "[SC] Development Services"),
    Mapping("Sanctu Payroll", "[SC] Development Payroll"),
    Mapping("Sanctu Benefits", "[SC] Development Benefits, Contributions & Tax"),
    Mapping("Sanctu Subcontractors", "[SC] Development Subcontractors"),
    Mapping("Hydro Revenue", "[SC] Product Design Services"),
    Mapping("Hydro Payroll", "[SC] Product Design Payroll"),
    Mapping("Hydro Benefits", "[SC] Product Design Benefits, Contributions & Tax"),
    Mapping("Hydro Subcontractors", "[SC] Product Design Subcontractors"),
    Mapping("XXIX Revenue", "[SC] Brand Design Services"),
    Mapping("XXIX Payroll", "[SC] Brand Design Payroll"),
    Mapping("XXIX Benefits", "[SC] Brand Design Benefits, Contributions & Tax"),
    Mapping("XXIX Subcontractors", "[SC] Brand Design Subcontractors"),
    Mapping("Index Revenue", "[SC] Community Sales"),
    Mapping("Index Supplies & Materials", "[SC] Community Supplies & Materials"),
    Mapping("Index Payroll", "[SC] Community Payroll"),
    Mapping("Index Benefits", "[SC] Community Benefits, Contributions & Tax"),
    Mapping("Index Subcontractors", "[SC] Community Subcontractors")
  ]

  /** `YearlyMappings`, in declaration order. */
  const YearlyMappings: seq<Mapping> := [
    Mapping("Gross Revenue", "Total Income"),
    Mapping("Gross Expenses", "Total Expenses"),
    Mapping("Gross COGS", "Total Cost of Goods Sold"),
    Mapping("Profit Share Pool", "[SC] Profit Share, Bonuses & Misc"),
    Mapping("Carbon Offsets", "[SC] Carbon Offsets"),
    Mapping("Charitable Donations", "[SC] Charitable Donations"),
    Mapping("Reinvestment", "[SC] Reinvestment")
  ]

  /** `parseFloat(data[category] || '0')`: a missing category and an empty
      amount are the only falsy cases and read as "0". */
  function AmountFor(data: CategoryMap, category: string): Value {
    if category in data && data[category] != "" then Parsed(data[category]) else Parsed("0")
  }

  /** The label cell first, then one cell per mapping entry in table order:
      the entry's column with its category's amount, zero when the category
      is missing or empty. */
  function BuildRow(head: Cell, mappings: seq<Mapping>, data: CategoryMap): (r: seq<Cell>)
    ensures |r| == 1 + |mappings|
    ensures r[0] == head
    ensures forall i :: 0 <= i < |mappings| ==> r[i + 1].column == mappings[i].column
    ensures forall i :: 0 <= i < |mappings| && (mappings[i].category !in data || data[mappings[i].category] == "")
              ==> r[i + 1].value == Parsed("0")
    ensures forall i :: 0 <= i < |mappings| && mappings[i].category in data && data[mappings[i].category] != ""
              ==> r[i + 1].value == Parsed(data[mappings[i].category])
  {
    [head] + seq(|mappings|, i requires 0 <= i < |mappings| =>
                   Cell(mappings[i].column, AmountFor(data, mappings[i].category)))
  }

  /** The row written for a month: `Month` = "<MonthName>, <year>" first. */
  function MonthlyRow(month: int, year: int, data: CategoryMap): seq<Cell> {
    BuildRow(Cell("Month", Text(MonthLabel(month, year))), MonthlyMappings, data)
  }

  /** The row written for a year: `Year` = the year as a number first. */
  function YearlyRow(year: int, data: CategoryMap): seq<Cell> {
    BuildRow(Cell("Year", Number(year)), YearlyMappings, data)
  }

  /** The column-to-value view of a row: what a table stores when it writes
      the cells in order (a later cell for the same column wins). */
  function Written(cells: seq<Cell>): map<string, Value> {
    LastWins.Fold(map[], seq(|cells|, i requires 0 <= i < |cells| => (cells[i].column, cells[i].value)))
  }

  predicate DistinctColumns(mappings: seq<Mapping>) {
    forall i, j :: 0 <= i < j < |mappings| ==> mappings[i].column != mappings[j].column
  }

  /** Reading back a built row whose columns are distinct and differ from the
      label column: the label column holds the label, each mapped column holds
      its category's amount, and no other column is written. */
  lemma {:induction false} BuildRowReadsBack(head: Cell, mappings: seq<Mapping>, data: CategoryMap)
    requires DistinctColumns(mappings)
    requires forall i :: 0 <= i < |mappings| ==> mappings[i].column != head.column
    ensures var w := Written(BuildRow(head, mappings, data));
      && head.column in w && w[head.column] == head.value
      && (forall i :: 0 <= i < |mappings| ==>
            mappings[i].column in w && w[mappings[i].column] == AmountFor(data, mappings[i].category))
      && (forall c :: c in w ==> c == head.column || exists i :: 0 <= i < |mappings| && mappings[i].column == c)
  {
    var cells := BuildRow(head, mappings, data);
    var es := seq(|cells|, i requires 0 <= i < |cells| => (cells[i].column, cells[i].value));
    var w := Written(cells);
    LastWins.FoldIsLatest(map[], es, head.column);
    assert es[0] == (head.column, head.value);
    forall i | 0 <= i < |mappings|
      ensures mappings[i].column in w && w[mappings[i].column] == AmountFor(data, mappings[i].category)
    {
      var c := mappings[i].column;
      LastWins.FoldIsLatest(map[], es, c);
      assert es[i + 1].0 == c;
      var v := LastWins.Latest(es, c).value;
      var k :| 0 <= k < |es| && es[k] == (c, v) && forall j :: k < j < |es| ==> es[j].0 != c;
    }
    BuildRowKeys(head, mappings, data);
  }

  /** Every column a built row writes is the head's or a mapped one. */
  lemma BuildRowKeys(head: Cell, mappings: seq<Mapping>, data: CategoryMap)
    ensures forall c :: c in Written(BuildRow(head, mappings, data)) ==>
              c == head.column || exists i :: 0 <= i < |mappings| && mappings[i].column == c
  {
    var cells := BuildRow(head, mappings, data);
    var es := seq(|cells|, i requires 0 <= i < |cells| => (cells[i].column, cells[i].value));
    forall c | c in Written(cells) ensures c == head.column || exists i :: 0 <= i < |mappings| && mappings[i].column == c {
      LastWins.FoldIsLatest(map[], es, c);
      var k :| 0 <= k < |es| && es[k].0 == c;
      if k > 0 {
        assert mappings[k - 1].column == c;
      }
    }
  }

  /** A built row with distinct columns writes exactly 1 + |mappings| columns. */
  lemma BuildRowWidth(head: Cell, mappings: seq<Mapping>, data: CategoryMap)
    requires DistinctColumns(mappings)
    requires forall i :: 0 <= i < |mappings| ==> mappings[i].column != head.column
    ensures |Written(BuildRow(head, mappings, data))| == 1 + |mappings|
  {
    BuildRowReadsBack(head, mappings, data);
    var w := Written(BuildRow(head, mappings, data));
    var cols := set i | 0 <= i < |mappings| :: mappings[i].column;
    assert w.Keys == {head.column} + cols;
    ColumnSetSize(mappings);
  }

  // `VisiblyDifferent`, `Signature` and `MonthlySignatures` exist only to
  // prove string literals different cheaply: comparing a few characters
  // and the length lets the verifier avoid comparing whole literals. They
  // model nothing in the sync itself.

  /** Two strings differ when they differ in length or in one of a few
      positions; enough to tell the table's column names apart. */
  predicate VisiblyDifferent(a: string, b: string) {
    |a| != |b| || (|a| >= 2 && (a[0] != b[0] || a[1] != b[1] || a[|a| - 2] != b[|b| - 2]))
  }

  /** First character, length and next-to-last character of a name:
      names with different signatures are different. */
  function Signature(s: string): (char, int, char) {
    if |s| < 2 then (' ', |s|, ' ') else (s[0], |s|, s[|s| - 2])
  }

  /** The signatures of the monthly column names, in table order. */
  const MonthlySignatures: seq<(char, int, char)> := [('G', 13, 'u'), ('G', 14, 'e'), ('G', 13, 'l'), ('G', 14, 't'), ('G', 20, 'r'), ('S', 14, 'u'), ('S', 14, 'l'), ('S', 15, 't'), ('S', 21, 'r'), ('H', 13, 'u'), ('H', 13, 'l'), ('H', 14, 't'), ('H', 20, 'r'), ('X', 12, 'u'), ('X', 12, 'l'), ('X', 13, 't'), ('X', 19, 'r'), ('I', 13, 'u'), ('I', 26, 'l'), ('I', 13, 'l'), ('I', 14, 't'), ('I', 20, 'r')]

  lemma MonthlySignaturesMatch()
    ensures forall i :: 0 <= i < |MonthlyMappings| ==> Signature(MonthlyMappings[i].column) == MonthlySignatures[i]
  {
    MonthlySignaturesMatchBelow();
    MonthlySignaturesMatchAbove();
  }

  lemma MonthlySignaturesMatchBelow()
    ensures forall i :: 0 <= i < 11 ==> Signature(MonthlyMappings[i].column) == MonthlySignatures[i]
  {
    assert Signature(MonthlyMappings[0].column) == MonthlySignatures[0];
    assert Signature(MonthlyMappings[1].column) == MonthlySignatures[1];
    assert Signature(MonthlyMappings[2].column) == MonthlySignatures[2];
    assert Signature(MonthlyMappings[3].column) == MonthlySignatures[3];
    assert Signature(MonthlyMappings[4].column) == MonthlySignatures[4];
    assert Signature(MonthlyMappings[5].column) == MonthlySignatures[5];
    assert Signature(MonthlyMappings[6].column) == MonthlySignatures[6];
    assert Signature(MonthlyMappings[7].column) == MonthlySignatures[7];
    assert Signature(MonthlyMappings[8].column) == MonthlySignatures[8];
    assert Signature(MonthlyMappings[9].column) == MonthlySignatures[9];
    assert Signature(MonthlyMappings[10].column) == MonthlySignatures[10];
  }

  lemma MonthlySignaturesMatchAbove()
    ensures forall i :: 11 <= i < 22 ==> Signature(MonthlyMappings[i].column) == MonthlySignatures[i]
  {
    assert Signature(MonthlyMappings[11].column) == MonthlySignatures[11];
    assert Signature(MonthlyMappings[12].column) == MonthlySignatures[12];
    assert Signature(MonthlyMappings[13].column) == MonthlySignatures[13];
    assert Signature(MonthlyMappings[14].column) == MonthlySignatures[14];
    assert Signature(MonthlyMappings[15].column) == MonthlySignatures[15];
    assert Signature(MonthlyMappings[16].column) == MonthlySignatures[16];
    assert Signature(MonthlyMappings[17].column) == MonthlySignatures[17];
    assert Signature(MonthlyMappings[18].column) == MonthlySignatures[18];
    assert Signature(MonthlyMappings[19].column) == MonthlySignatures[19];
    assert Signature(MonthlyMappings[20].column) == MonthlySignatures[20];
    assert Signature(MonthlyMappings[21].column) == MonthlySignatures[21];
  }

  lemma MonthlySignaturesDistinct()
    ensures forall i, j :: 0 <= i < j < |MonthlySignatures| ==> MonthlySignatures[i] != MonthlySignatures[j]
  {
  }

  /** The monthly column names are pairwise different, and none is `Month`. */
  lemma MonthlyColumnsDistinct()
    ensures DistinctColumns(MonthlyMappings)
    ensures forall i :: 0 <= i < |MonthlyMappings| ==> MonthlyMappings[i].column != "Month"
  {
    MonthlySignaturesMatch();
    MonthlySignaturesDistinct();
    forall i | 0 <= i < |MonthlyMappings| ensures MonthlyMappings[i].column != "Month" {
      assert Signature("Month") == ('M', 5, 't');
    }
  }

  lemma YearlyColumnsDistinct()
    ensures DistinctColumns(YearlyMappings)
    ensures forall i :: 0 <= i < |YearlyMappings| ==> YearlyMappings[i].column != "Year"
  {
    forall i, j | 0 <= i < j < |YearlyMappings|
      ensures YearlyMappings[i].column != YearlyMappings[j].column
    {
      assert VisiblyDifferent(YearlyMappings[i].column, YearlyMappings[j].column);
    }
  }

  /** Reading back a monthly row: `Month` holds the label and each of the 22
      mapped columns holds its category's amount (zero when missing). */
  lemma MonthlyRowReadsBack(month: int, year: int, data: CategoryMap)
    ensures var w := Written(MonthlyRow(month, year, data));
      && "Month" in w && w["Month"] == Text(MonthLabel(month, year))
      && (forall i :: 0 <= i < |MonthlyMappings| ==>
            MonthlyMappings[i].column in w && w[MonthlyMappings[i].column] == AmountFor(data, MonthlyMappings[i].category))
      && |w| == 1 + |MonthlyMappings|
  {
    MonthlyColumnsDistinct();
    BuildRowReadsBack(Cell("Month", Text(MonthLabel(month, year))), MonthlyMappings, data);
    BuildRowWidth(Cell("Month", Text(MonthLabel(month, year))), MonthlyMappings, data);
  }

  /** Reading back a yearly row: `Year` holds the year and each of the 7
      mapped columns holds its category's amount (zero when missing). */
  lemma YearlyRowReadsBack(year: int, data: CategoryMap)
    ensures var w := Written(YearlyRow(year, data));
      && "Year" in w && w["Year"] == Number(year)
      && (forall i :: 0 <= i < |YearlyMappings| ==>
            YearlyMappings[i].column in w && w[YearlyMappings[i].column] == AmountFor(data, YearlyMappings[i].category))
      && |w| == 1 + |YearlyMappings|
  {
    YearlyColumnsDistinct();
    BuildRowReadsBack(Cell("Year", Number(year)), YearlyMappings, data);
    BuildRowWidth(Cell("Year", Number(year)), YearlyMappings, data);
  }

  /** Distinct columns form a set as large as the table. */
  lemma {:induction false} ColumnSetSize(mappings: seq<Mapping>)
    requires DistinctColumns(mappings)
    ensures |set i | 0 <= i < |mappings| :: mappings[i].column| == |mappings|
  {
    if |mappings| > 0 {
      var init := mappings[..|mappings| - 1];
      ColumnSetSize(init);
      var s := set i | 0 <= i < |mappings| :: mappings[i].column;
      var s' := set i | 0 <= i < |init| :: init[i].column;
      assert s == s' + {mappings[|mappings| - 1].column};
      assert mappings[|mappings| - 1].column !in s';
    }
  }
}

=== FILE: last_wins.dfy ===
/** Last-writer-wins maps. The source builds every category map either with
    `reduce((acc, r) => { acc[key] = value; return acc }, seed)` or with the
    object spread `{...a, ...b}`; both let a later write replace an earlier
    one. `Fold` and `Merge` model those two forms, and `Latest` is the
    reference reading of "the last write for a key". */
module LastWins {
  import opened Results

  /** The value of the last entry whose key is `k`, searched from the back. */
  function Latest<V>(es: seq<(string, V)>, k: string): (r: Option<V>)
    ensures r.Some? <==> exists i :: 0 <= i < |es| && es[i].0 == k
    ensures r.Some? ==> exists i :: 0 <= i < |es| && es[i] == (k, r.value)
                          && forall j :: i < j < |es| ==> es[j].0 != k
  {
    if |es| == 0 then None
    else if es[|es| - 1].0 == k then Some(es[|es| - 1].1)
    else Latest(es[..|es| - 1], k)
  }

  /** Writes the entries into `m` front to back, like the `reduce` above. */
  function Fold<V>(m: map<string, V>, es: seq<(string, V)>): map<string, V>
    decreases |es|
  {
    if |es| == 0 then m else Fold(m[es[0].0 := es[0].1], es[1..])
  }

  /** Splitting off the first entry: the last write among `es` is the last
      write among `es[1..]`, or the first entry when no later one has its key. */
  lemma {:induction false} LatestFront<V>(es: seq<(string, V)>, k: string)
    requires |es| > 0
    ensures Latest(es, k) ==
      match Latest(es[1..], k)
      case Some(v) => Some(v)
      case None => if es[0].0 == k then Some(es[0].1) else None
  {
    if |es| > 1 && es[|es| - 1].0 != k {
      LatestFront(es[..|es| - 1], k);
      assert es[..|es| - 1][1..] == es[1..][..|es[1..]| - 1];
    }
  }

  /** A folded map holds exactly the seed's keys and the entries' keys, and
      each key carries its last write, falling back on the seed. */
  lemma {:induction false} FoldIsLatest<V>(m: map<string, V>, es: seq<(string, V)>, k: string)
    ensures k in Fold(m, es) <==> k in m || Latest(es, k).Some?
    ensures k in Fold(m, es) ==>
      Fold(m, es)[k] == (match Latest(es, k) case Some(v) => v case None => m[k])
    decreases |es|
  {
    if |es| > 0 {
      FoldIsLatest(m[es[0].0 := es[0].1], es[1..], k);
      LatestFront(es, k);
    }
  }

  /** Spreads the maps left to right, `{...ms[0], ...ms[1], ...}`. */
  function Merge<V>(ms: seq<map<string, V>>): map<string, V> {
    if |ms| == 0 then map[] else Merge(ms[..|ms| - 1]) + ms[|ms| - 1]
  }

  /** The spread holds exactly the keys that some map holds. */
  lemma {:induction false} MergeKeys<V>(ms: seq<map<string, V>>, k: string)
    ensures k in Merge(ms) <==> exists i :: 0 <= i < |ms| && k in ms[i]
  {
    if |ms| > 0 {
      var prefix := ms[..|ms| - 1];
      MergeKeys(prefix, k);
      if k in Merge(prefix) {
        var i :| 0 <= i < |prefix| && k in prefix[i];
        assert k in ms[i];
      }
      if (exists i :: 0 <= i < |ms| && k in ms[i]) && k !in ms[|ms| - 1] {
        var i :| 0 <= i < |ms| && k in ms[i];
        assert k in prefix[i];
      }
    }
  }

  /** `ms[i]` is the last of the maps that holds `k`. */
  predicate LastIn<V>(ms: seq<map<string, V>>, i: nat, k: string) {
    i < |ms| && k in ms[i] && forall j :: i < j < |ms| ==> k !in ms[j]
  }

  /** In a merge, a key carries its value from the last map that holds it. */
  lemma {:induction false} MergeLastWins<V>(ms: seq<map<string, V>>, i: nat, k: string)
    requires i < |ms| && k in ms[i]
    requires forall j :: i < j < |ms| ==> k !in ms[j]
    ensures k in Merge(ms) && Merge(ms)[k] == ms[i][k]
  {
    if i < |ms| - 1 {
      var prefix := ms[..|ms| - 1];
      assert k !in ms[|ms| - 1];
      assert forall j :: i < j < |prefix| ==> prefix[j] == ms[j];
      MergeLastWins(prefix, i, k);
    }
  }

  /** Maps whose key sets do not overlap. */
  predicate PairwiseDisjoint<V>(ms: seq<map<string, V>>) {
    forall i, j :: 0 <= i < j < |ms| ==> ms[i].Keys !! ms[j].Keys
  }

  /** With disjoint key sets, merging loses nothing: every map's every entry
      survives unchanged. */
  lemma MergeDisjointPreserves<V>(ms: seq<map<string, V>>, i: nat, k: string)
    requires PairwiseDisjoint(ms)
    requires i < |ms| && k in ms[i]
    ensures k in Merge(ms) && Merge(ms)[k] == ms[i][k]
  {
    forall j | i < j < |ms| ensures k !in ms[j] {
      assert ms[i].Keys !! ms[j].Keys;
    }
    MergeLastWins(ms, i, k);
  }
}

=== FILE: periods.dfy ===
/** The periods a run visits: every month from January 2020 through the
    month before today, and every year from 2016 through this year. */
module Periods {

  /** A calendar month, 0-indexed as `Date.getMonth` returns it. */
  datatype MonthPeriod = MonthPeriod(month: int, year: int)

  /** January 2020, when the accounts were first broken out by studio. */
  const FirstMonth := MonthPeriod(0, 2020)
  const FirstYear := 2016

  predicate Valid(p: MonthPeriod) {
    0 <= p.month < 12
  }

  /** Months counted from the start of year 0: the order of `Date` values
      for the first of each month. */
  function Ordinal(p: MonthPeriod): int {
    12 * p.year + p.month
  }

  function MonthAt(ordinal: int): (p: MonthPeriod)
    ensures Valid(p) && Ordinal(p) == ordinal
  {
    MonthPeriod(ordinal % 12, ordinal / 12)
  }

  /** A valid month is determined by its ordinal. */
  lemma OrdinalInjective(p: MonthPeriod, q: MonthPeriod)
    requires Valid(p) && Valid(q) && Ordinal(p) == Ordinal(q)
    ensures p == q
  {
  }

  /** `target.setMonth(target.getMonth() + 1)` on the first of a month. */
  function NextMonth(p: MonthPeriod): (q: MonthPeriod)
    requires Valid(p)
    ensures Valid(q) && Ordinal(q) == Ordinal(p) + 1
  {
    if p.month == 11 then MonthPeriod(0, p.year + 1) else MonthPeriod(p.month + 1, p.year)
  }

  /** The last month a run syncs: the month before today's, which in January
      is December of the previous year. */
  function LastMonthToSync(todayMonth: int, todayYear: int): (p: MonthPeriod)
    requires 0 <= todayMonth < 12
    ensures Valid(p) && Ordinal(p) == Ordinal(MonthPeriod(todayMonth, todayYear)) - 1
  {
    if todayMonth - 1 == -1 then MonthPeriod(11, todayYear - 1)
    else MonthPeriod(todayMonth - 1, todayYear)
  }

  /** The number of months from January 2020 through the last month. */
  function MonthCount(todayMonth: int, todayYear: int): nat
    requires 0 <= todayMonth < 12
  {
    var span := Ordinal(LastMonthToSync(todayMonth, todayYear)) - Ordinal(FirstMonth) + 1;
    if span < 0 then 0 else span
  }

  /** Reference enumeration of the months a run visits: the k-th month after
      January 2020, for every k up to the last month. */
  function MonthsToSync(todayMonth: int, todayYear: int): (ps: seq<MonthPeriod>)
    requires 0 <= todayMonth < 12
    ensures |ps| == MonthCount(todayMonth, todayYear)
    ensures forall i :: 0 <= i < |ps| ==> Valid(ps[i]) && Ordinal(ps[i]) == Ordinal(FirstMonth) + i
  {
    var ps := seq(MonthCount(todayMonth, todayYear), i => MonthAt(Ordinal(FirstMonth) + i));
    assert forall i :: 0 <= i < |ps| ==> ps[i] == MonthAt(Ordinal(FirstMonth) + i);
    ps
  }

  /** The months run from January 2020 to the month before today, inclusive,
      each the successor of the one before: contiguous and strictly
      increasing, so no month is visited twice. */
  lemma MonthsContiguous(todayMonth: int, todayYear: int)
    requires 0 <= todayMonth < 12
    ensures var ps := MonthsToSync(todayMonth, todayYear);
      && (|ps| > 0 ==> ps[0] == FirstMonth && ps[|ps| - 1] == LastMonthToSync(todayMonth, todayYear))
      && (|ps| == 0 <==> Ordinal(LastMonthToSync(todayMonth, todayYear)) < Ordinal(FirstMonth))
      && (forall i :: 0 <= i < |ps| - 1 ==> ps[i + 1] == NextMonth(ps[i]))
      && (forall i, j :: 0 <= i < j < |ps| ==> Ordinal(ps[i]) < Ordinal(ps[j]) && ps[i] != ps[j])
  {
    var ps := MonthsToSync(todayMonth, todayYear);
    if |ps| > 0 {
      OrdinalInjective(ps[0], FirstMonth);
      OrdinalInjective(ps[|ps| - 1], LastMonthToSync(todayMonth, todayYear));
    }
    forall i | 0 <= i < |ps| - 1 ensures ps[i + 1] == NextMonth(ps[i]) {
      OrdinalInjective(ps[i + 1], NextMonth(ps[i]));
    }
  }

  /** Reference enumeration of the years a run visits: 2016 through this year. */
  function YearsToSync(todayYear: int): (ys: seq<int>)
    ensures |ys| == if todayYear < FirstYear then 0 else todayYear - FirstYear + 1
    ensures forall i :: 0 <= i < |ys| ==> ys[i] == FirstYear + i
  {
    seq(if todayYear < FirstYear then 0 else todayYear - FirstYear + 1, i => FirstYear + i)
  }
}

=== FILE: report.dfy ===
/** The profit-and-loss report tree and the two reads the sync makes of it:
    locating a section, and flattening a section into a category map. */
module Report {
  import opened Results
  import opened Text
  import LastWins

  /** A section's `Summary.ColData`: its total's label and amount. */
  datatype Summary = Summary(title: string, amount: string)

  /** One entry of a `Rows.Row` list: a leaf with `ColData[0]` (label) and
      `ColData[1]` (amount), or a nested section. */
  datatype Row =
    | Data(title: string, amount: string)
    | Nested(section: Section)

  /** A section with its optional `group` tag, its optional `Rows.Row` list
      and its optional `Summary`. */
  datatype Section = Section(group: Option<string>, rows: Option<seq<Row>>, summary: Option<Summary>)

  /** The report's top-level `Rows.Row` list. */
  datatype Report = Report(rows: seq<Row>)

  /** Category label to amount text, as the backend reports amounts. */
  type CategoryMap = map<string, string>

  /** How a top-level section is recognised: the monthly sync compares the
      tag exactly, the yearly sync lower-cases it first (a missing tag reads
      as the empty string). */
  datatype GroupTest = Exact(name: string) | IgnoringCase(lowered: string)

  function GroupOrEmpty(group: Option<string>): string {
    match group
    case Some(g) => g
    case None => ""
  }

  predicate IsGroup(r: Row, t: GroupTest) {
    r.Nested? &&
    match t
    case Exact(name) => r.section.group == Some(name)
    case IgnoringCase(lowered) => LowerAscii(GroupOrEmpty(r.section.group)) == lowered
  }

  /** What a `find` over report rows looks for: a top-level group, a child
      section whose total has a title, or a leaf with a title. */
  datatype RowTest = Group(test: GroupTest) | SummaryTitled(title: string) | LeafTitled(title: string)

  predicate Passes(r: Row, t: RowTest) {
    match t
    case Group(g) => IsGroup(r, g)
    case SummaryTitled(title) => HasSummaryLabel(r, title)
    case LeafTitled(title) => IsLeafLabelled(r, title)
  }

  /** `Array.prototype.find` over rows: the index of the first row that
      passes, visiting them in order; nothing when none passes. */
  function FirstIndex(rows: seq<Row>, t: RowTest): (r: Option<nat>)
    ensures r.Some? ==> r.value < |rows| && Passes(rows[r.value], t)
    ensures r.Some? ==> forall j :: 0 <= j < r.value ==> !Passes(rows[j], t)
    ensures r.None? <==> forall j :: 0 <= j < |rows| ==> !Passes(rows[j], t)
  {
    if |rows| == 0 then None
    else if Passes(rows[0], t) then Some(0)
    else match FirstIndex(rows[1..], t)
      case None => None
      case Some(i) => Some(i + 1)
  }

  /** The first top-level section the test accepts. */
  function FindGroup(rows: seq<Row>, t: GroupTest): (r: Option<Section>)
    ensures r.None? <==> forall i :: 0 <= i < |rows| ==> !IsGroup(rows[i], t)
    ensures r.Some? ==> exists i :: 0 <= i < |rows| && IsGroup(rows[i], t) && rows[i].section == r.value
                                    && forall j :: 0 <= j < i ==> !IsGroup(rows[j], t)
  {
    match FirstIndex(rows, Group(t))
    case None => None
    case Some(i) => Some(rows[i].section)
  }

  /** A section the exact test finds is also found by the lower-cased test
      with the lowered name, at the same place or earlier: an earlier
      section whose tag differs only in case comes first. */
  lemma ExactFoundIgnoringCase(rows: seq<Row>, name: string)
    requires FirstIndex(rows, Group(Exact(name))).Some?
    ensures FirstIndex(rows, Group(IgnoringCase(LowerAscii(name)))).Some?
    ensures FirstIndex(rows, Group(IgnoringCase(LowerAscii(name)))).value
            <= FirstIndex(rows, Group(Exact(name))).value
  {
    var i := FirstIndex(rows, Group(Exact(name))).value;
    assert Passes(rows[i], Group(IgnoringCase(LowerAscii(name))));
  }

  predicate HasSummaryLabel(r: Row, title: string) {
    r.Nested? && r.section.summary.Some? && r.section.summary.value.title == title
  }

  /** `find(r => r.Summary && r.Summary.ColData[0].value === title)`: the
      first child section whose total carries `title`. */
  function FindSubsection(rows: seq<Row>, title: string): (r: Option<Section>)
    ensures r.None? <==> forall i :: 0 <= i < |rows| ==> !HasSummaryLabel(rows[i], title)
    ensures r.Some? ==> exists i :: 0 <= i < |rows| && HasSummaryLabel(rows[i], title)
                                    && rows[i].section == r.value
                                    && forall j :: 0 <= j < i ==> !HasSummaryLabel(rows[j], title)
  {
    match FirstIndex(rows, SummaryTitled(title))
    case None => None
    case Some(i) => Some(rows[i].section)
  }

  predicate HasSummary(r: Row) {
    r.Nested? && r.section.summary.Some?
  }

  /** `find(r => r.Summary.ColData[0].value === title)`, without the guard:
      a row without a `Summary` that is reached before the match throws. When
      nothing throws, the search agrees with the guarded one. */
  function FindSubsectionUnguarded(rows: seq<Row>, title: string): (r: Result<Option<Section>>)
    ensures r.Err? <==> exists i :: 0 <= i < |rows| && !HasSummary(rows[i])
                                    && forall j :: 0 <= j < i ==> !HasSummaryLabel(rows[j], title)
    ensures r.Ok? ==> r.value == FindSubsection(rows, title)
  {
    if |rows| == 0 then Ok(None)
    else if !HasSummary(rows[0]) then Err(MissingSummary)
    else if HasSummaryLabel(rows[0], title) then Ok(Some(rows[0].section))
    else
      var rest := FindSubsectionUnguarded(rows[1..], title);
      assert rest.Ok? ==> FindSubsection(rows, title) == rest.value by {
        if rest.Ok? {
          FindSubsectionSkipsHead(rows, title);
        }
      }
      assert rest.Err? ==> exists i :: 0 <= i < |rows| && !HasSummary(rows[i])
                                    && forall j :: 0 <= j < i ==> !HasSummaryLabel(rows[j], title) by {
        if rest.Err? {
          var i :| 0 <= i < |rows[1..]| && !HasSummary(rows[1..][i])
                   && forall j :: 0 <= j < i ==> !HasSummaryLabel(rows[1..][j], title);
          assert forall j :: 0 <= j < i + 1 ==> !HasSummaryLabel(rows[j], title) by {
            forall j | 0 <= j < i + 1 ensures !HasSummaryLabel(rows[j], title) {
              if j > 0 { assert rows[j] == rows[1..][j - 1]; }
            }
          }
        }
      }
      rest
  }

  /** A head that does not match can be skipped. */
  lemma FindSubsectionSkipsHead(rows: seq<Row>, title: string)
    requires |rows| > 0 && !HasSummaryLabel(rows[0], title)
    ensures FindSubsection(rows, title) == FindSubsection(rows[1..], title)
  {
    var a, b := FindSubsection(rows, title), FindSubsection(rows[1..], title);
    if a.Some? {
      var i :| 0 <= i < |rows| && HasSummaryLabel(rows[i], title) && rows[i].section == a.value
               && forall j :: 0 <= j < i ==> !HasSummaryLabel(rows[j], title);
      assert HasSummaryLabel(rows[1..][i - 1], title);
    }
  }

  predicate IsLeafLabelled(r: Row, title: string) {
    r.Data? && r.title == title
  }

  /** `find(r => (r.ColData && r.ColData[0].value) === title)`: the first leaf
      carrying `title`, as a one-entry category map; empty when there is none. */
  function FindLeaf(rows: seq<Row>, title: string): (r: CategoryMap)
    ensures r.Keys <= {title}
    ensures title !in r <==> forall i :: 0 <= i < |rows| ==> !IsLeafLabelled(rows[i], title)
    ensures title in r ==> exists i :: 0 <= i < |rows| && IsLeafLabelled(rows[i], title)
                                       && r == map[title := rows[i].amount]
                                       && forall j :: 0 <= j < i ==> !IsLeafLabelled(rows[j], title)
  {
    match FirstIndex(rows, LeafTitled(title))
    case None => map[]
    case Some(i) => map[title := rows[i].amount]
  }

  /** The (label, amount) pairs of the children, which must all be leaves:
      reading `ColData` of a nested section throws. */
  function LeafEntries(rows: seq<Row>): (r: Result<seq<(string, string)>>)
    ensures r.Ok? <==> forall i :: 0 <= i < |rows| ==> rows[i].Data?
    ensures r.Err? ==> r.fault == NotALeaf
    ensures r.Ok? ==> |r.value| == |rows|
                      && forall i :: 0 <= i < |rows| ==> r.value[i] == (rows[i].title, rows[i].amount)
  {
    if |rows| == 0 then Ok([])
    else if rows[0].Nested? then Err(NotALeaf)
    else
      var rest :- LeafEntries(rows[1..]);
      Ok([(rows[0].title, rows[0].amount)] + rest)
  }

  /** The category map of one section: seeded with its total, then every
      child leaf written in order, so a later child with the same label
      replaces an earlier one (and the total). A section without children
      list or total, or with a nested child, throws. */
  function Flatten(s: Section): (r: Result<CategoryMap>)
    ensures r.Ok? <==> s.rows.Some? && s.summary.Some?
                       && forall i :: 0 <= i < |s.rows.value| ==> s.rows.value[i].Data?
    ensures r == Err(MissingRows) <==> s.rows.None?
    ensures r == Err(MissingSummary) <==> s.rows.Some? && s.summary.None?
    ensures r.Ok? ==> forall k ::
              k in r.value <==> k == s.summary.value.title
                                || exists i :: 0 <= i < |s.rows.value| && s.rows.value[i].title == k
    ensures r.Ok? ==> forall i ::
              0 <= i < |s.rows.value|
              && (forall j :: i < j < |s.rows.value| ==> s.rows.value[j].title != s.rows.value[i].title)
              ==> s.rows.value[i].title in r.value && r.value[s.rows.value[i].title] == s.rows.value[i].amount
    ensures r.Ok? ==>
              var total := s.summary.value;
              (forall i :: 0 <= i < |s.rows.value| ==> s.rows.value[i].title != total.title)
              ==> total.title in r.value && r.value[total.title] == total.amount
  {
    if s.rows.None? then Err(MissingRows)
    else if s.summary.None? then Err(MissingSummary)
    else
      var entries :- LeafEntries(s.rows.value);
      var seed := map[s.summary.value.title := s.summary.value.amount];
      var m := LastWins.Fold(seed, entries);
      FlattenSpec(s, entries, seed);
      Ok(m)
  }

  lemma FlattenSpec(s: Section, entries: seq<(string, string)>, seed: CategoryMap)
    requires s.rows.Some? && s.summary.Some?
    requires LeafEntries(s.rows.value) == Ok(entries)
    requires seed == map[s.summary.value.title := s.summary.value.amount]
    ensures var m := LastWins.Fold(seed, entries);
      && (forall k :: (k in m) <==> (k == s.summary.value.title
                                     || exists i :: 0 <= i < |s.rows.value| && s.rows.value[i].title == k))
      && (forall i :: 0 <= i < |s.rows.value|
              && (forall j :: i < j < |s.rows.value| ==> s.rows.value[j].title != s.rows.value[i].title)
              ==> s.rows.value[i].title in m && m[s.rows.value[i].title] == s.rows.value[i].amount)
      && ((forall i :: 0 <= i < |s.rows.value| ==> s.rows.value[i].title != s.summary.value.title)
              ==> s.summary.value.title in m && m[s.summary.value.title] == s.summary.value.amount)
  {
    FlattenKeys(s, entries, seed);
    FlattenLastChildWins(s, entries, seed);
    var t := s.summary.value.title;
    if forall i :: 0 <= i < |s.rows.value| ==> s.rows.value[i].title != t {
      LastWins.FoldIsLatest(seed, entries, t);
    }
  }

  /** The flattened keys are the total's label and the children's labels. */
  lemma FlattenKeys(s: Section, entries: seq<(string, string)>, seed: CategoryMap)
    requires s.rows.Some? && s.summary.Some?
    requires LeafEntries(s.rows.value) == Ok(entries)
    requires seed == map[s.summary.value.title := s.summary.value.amount]
    ensures var m := LastWins.Fold(seed, entries);
      forall k :: (k in m) <==> (k == s.summary.value.title
                                 || exists i :: 0 <= i < |s.rows.value| && s.rows.value[i].title == k)
  {
    var rows := s.rows.value;
    var m := LastWins.Fold(seed, entries);
    forall k ensures k in m <==> k == s.summary.value.title
                                 || exists i :: 0 <= i < |rows| && rows[i].title == k {
      LastWins.FoldIsLatest(seed, entries, k);
      if LastWins.Latest(entries, k).Some? {
        var i :| 0 <= i < |entries| && entries[i].0 == k;
        assert rows[i].title == k;
      }
      if exists i :: 0 <= i < |rows| && rows[i].title == k {
        var i :| 0 <= i < |rows| && rows[i].title == k;
        assert entries[i].0 == k;
      }
    }
  }

  /** A flattened label holds the amount of the last child with that label. */
  lemma FlattenLastChildWins(s: Section, entries: seq<(string, string)>, seed: CategoryMap)
    requires s.rows.Some? && s.summary.Some?
    requires LeafEntries(s.rows.value) == Ok(entries)
    ensures var m := LastWins.Fold(seed, entries);
      forall i :: 0 <= i < |s.rows.value|
              && (forall j :: i < j < |s.rows.value| ==> s.rows.value[j].title != s.rows.value[i].title)
              ==> s.rows.value[i].title in m && m[s.rows.value[i].title] == s.rows.value[i].amount
  {
    var rows := s.rows.value;
    forall i | 0 <= i < |rows| && (forall j :: i < j < |rows| ==> rows[j].title != rows[i].title)
      ensures rows[i].title in LastWins.Fold(seed, entries)
              && LastWins.Fold(seed, entries)[rows[i].title] == rows[i].amount
    {
      ChildWins(s, entries, seed, i);
    }
  }

  /** The child at `i`, when no later child shares its label, decides that
      label's amount. */
  lemma ChildWins(s: Section, entries: seq<(string, string)>, seed: CategoryMap, i: nat)
    requires s.rows.Some? && LeafEntries(s.rows.value) == Ok(entries)
    requires i < |s.rows.value|
    requires forall j :: i < j < |s.rows.value| ==> s.rows.value[j].title != s.rows.value[i].title
    ensures var m := LastWins.Fold(seed, entries);
      s.rows.value[i].title in m && m[s.rows.value[i].title] == s.rows.value[i].amount
  {
    var rows := s.rows.value;
    assert entries[i] == (rows[i].title, rows[i].amount);
    forall j | i < j < |entries| ensures entries[j].0 != entries[i].0 {
      assert entries[j].0 == rows[j].title;
    }
    LastEntryWins(seed, entries, i);
  }

  /** The last entry for a key decides its value in the fold. */
  lemma LastEntryWins(seed: CategoryMap, entries: seq<(string, string)>, i: nat)
    requires i < |entries|
    requires forall j :: i < j < |entries| ==> entries[j].0 != entries[i].0
    ensures entries[i].0 in LastWins.Fold(seed, entries)
    ensures LastWins.Fold(seed, entries)[entries[i].0] == entries[i].1
  {
    var k := entries[i].0;
    LastWins.FoldIsLatest(seed, entries, k);
    var v := LastWins.Latest(entries, k).value;
    var i' :| 0 <= i' < |entries| && entries[i'] == (k, v)
              && forall j :: i' < j < |entries| ==> entries[j].0 != k;
    assert !(i' < i) && !(i < i');
  }
}

=== FILE: results.dfy ===
/** Optional values, and the faults that stop one period's sync. */
module Results {

  datatype Option<+T> = None | Some(value: T)

  /** Why one period's sync stops. Each case is a property read that the
      source performs without a guard (a JavaScript TypeError), or a report
      request that the accounting backend rejected. */
  datatype Fault =
    | MissingSection(group: string)   // a section the code dereferences is absent
    | MissingRows                      // a section has no `Rows.Row` list
    | MissingSummary                   // a section (or row) has no `Summary`
    | NotALeaf                         // a row without `ColData` where a leaf is read
    | FetchRejected                    // the profit-and-loss request failed

  /** Success or the fault that stopped the computation; usable with `:-`. */
  datatype Result<+T> = Ok(value: T) | Err(fault: Fault) {
    predicate IsFailure() { Err? }

    function PropagateFailure<U>(): Result<U>
      requires Err?
    {
      Err(fault)
    }

    function Extract(): T
      requires Ok?
    {
      value
    }
  }
}

=== FILE: sync.dfy ===
/** The daily run: for every month from January 2020 through last month,
    fetch the month's profit-and-loss report, extract its categories and
    upsert the month's row; then the same for every year from 2016 through
    this year. Each table is listed once, before its loop, and every period
    is decided against that listing. The first failure ends the run. */
module Sync {
  import opened Results
  import opened Report
  import opened Calendar
  import opened Extract
  import opened FieldMap
  import opened Upsert
  import opened Periods
  import LastWins

  /** The accounting backend's profit-and-loss request for a date range
      (start, end), which either answers with a report or is rejected. */
  type Fetch = (string, string) -> Result<Report>

  /** A month's row writes the month's label into `Month`. */
  lemma MonthRowCarriesKey(p: MonthPeriod, data: CategoryMap)
    ensures Carries(MonthlyRow(p.month, p.year, data), MonthKey(MonthLabel(p.month, p.year)))
  {
    MonthlyRowReadsBack(p.month, p.year, data);
  }

  /** A year's row writes the year, as a number, into `Year`. */
  lemma YearRowCarriesKey(year: int, data: CategoryMap)
    ensures Carries(YearlyRow(year, data), YearKey(year))
  {
    YearlyRowReadsBack(year, data);
  }

  /** The profit-and-loss report for a month's date range, as the backend
      answers the request. */
  function MonthReport(p: MonthPeriod, fetch: Fetch): Result<Report> {
    var range := MonthlyRange(p.month, p.year);
    fetch(range.0, range.1)
  }

  /** The profit-and-loss report for a whole year. */
  function YearReport(year: int, fetch: Fetch): Result<Report> {
    var range := YearlyRange(year);
    fetch(range.0, range.1)
  }

  /** One month's work once the month's report has been requested: extract
      the categories and build the row keyed by the month's label. A rejected
      request or a report the extraction cannot read fails the month. */
  function MonthJob(p: MonthPeriod, answer: Result<Report>): (r: Result<Job>)
    ensures r.Ok? <==> answer.Ok? && MonthlyCategories(answer.value).Ok?
    ensures r.Ok? ==> r.value.key == MonthKey(MonthLabel(p.month, p.year)) && Carries(r.value.cells, r.value.key)
    ensures r.Ok? ==> |r.value.cells| == 1 + |MonthlyMappings|
    ensures r.Ok? ==> r.value.cells == MonthlyRow(p.month, p.year, MonthlyCategories(answer.value).value)
  {
    var report :- answer;
    var data :- MonthlyCategories(report);
    MonthRowCarriesKey(p, data);
    Ok(Job(MonthKey(MonthLabel(p.month, p.year)), MonthlyRow(p.month, p.year, data)))
  }

  /** One year's work once the year's report has been requested: extract the
      categories and build the row keyed by the year as a number. */
  function YearJob(year: int, answer: Result<Report>): (r: Result<Job>)
    ensures r.Ok? <==> answer.Ok? && YearlyCategories(answer.value).Ok?
    ensures r.Ok? ==> r.value.key == YearKey(year) && Carries(r.value.cells, r.value.key)
    ensures r.Ok? ==> |r.value.cells| == 1 + |YearlyMappings|
    ensures r.Ok? ==> r.value.cells == YearlyRow(year, YearlyCategories(answer.value).value)
  {
    var report :- answer;
    var data :- YearlyCategories(report);
    YearRowCarriesKey(year, data);
    Ok(Job(YearKey(year), YearlyRow(year, data)))
  }

  predicate MonthsSucceed(ps: seq<MonthPeriod>, fetch: Fetch) {
    forall i :: 0 <= i < |ps| ==> MonthJob(ps[i], MonthReport(ps[i], fetch)).Ok?
  }

  predicate YearsSucceed(ys: seq<int>, fetch: Fetch) {
    forall i :: 0 <= i < |ys| ==> YearJob(ys[i], YearReport(ys[i], fetch)).Ok?
  }

  function MonthJobs(ps: seq<MonthPeriod>, fetch: Fetch): (jobs: seq<Job>)
    requires MonthsSucceed(ps, fetch)
    ensures |jobs| == |ps|
    ensures forall i :: 0 <= i < |ps| ==> jobs[i] == MonthJob(ps[i], MonthReport(ps[i], fetch)).value
  {
    seq(|ps|, i requires 0 <= i < |ps| && MonthsSucceed(ps, fetch) => MonthJob(ps[i], MonthReport(ps[i], fetch)).value)
  }

  function YearJobs(ys: seq<int>, fetch: Fetch): (jobs: seq<Job>)
    requires YearsSucceed(ys, fetch)
    ensures |jobs| == |ys|
    ensures forall i :: 0 <= i < |ys| ==> jobs[i] == YearJob(ys[i], YearReport(ys[i], fetch)).value
  {
    seq(|ys|, i requires 0 <= i < |ys| && YearsSucceed(ys, fetch) => YearJob(ys[i], YearReport(ys[i], fetch)).value)
  }

  /** Different months have different labels, so the jobs of the months a run
      visits are for pairwise different rows of the monthly table. */
  lemma MonthJobsDistinct(ps: seq<MonthPeriod>, fetch: Fetch)
    requires MonthsSucceed(ps, fetch)
    requires forall i :: 0 <= i < |ps| ==> Valid(ps[i])
    requires forall i, j :: 0 <= i < j < |ps| ==> ps[i] != ps[j]
    ensures DistinctJobs(MonthJobs(ps, fetch))
  {
    var jobs := MonthJobs(ps, fetch);
    forall i, j | 0 <= i < j < |jobs| ensures DifferentPeriods(jobs[i].key, jobs[j].key) {
      if MonthLabel(ps[i].month, ps[i].year) == MonthLabel(ps[j].month, ps[j].year) {
        MonthLabelInjective(ps[i].month, ps[i].year, ps[j].month, ps[j].year);
      }
    }
  }

  lemma YearJobsDistinct(ys: seq<int>, fetch: Fetch)
    requires YearsSucceed(ys, fetch)
    requires forall i, j :: 0 <= i < j < |ys| ==> ys[i] != ys[j]
    ensures DistinctJobs(YearJobs(ys, fetch))
  {
    var jobs := YearJobs(ys, fetch);
    forall i | 0 <= i < |jobs| ensures Carries(jobs[i].cells, jobs[i].key) {
      assert jobs[i] == YearJob(ys[i], YearReport(ys[i], fetch)).value;
    }
    forall i, j | 0 <= i < j < |jobs| ensures DifferentPeriods(jobs[i].key, jobs[j].key) {
      assert jobs[i].key == YearKey(ys[i]) && jobs[j].key == YearKey(ys[j]);
    }
  }

  /** The actions a loop takes for the periods it visited: each period's job
      decided against the listing taken before the loop. */
  predicate DecidedAgainst<P>(snapshot: seq<TableRow>, ps: seq<P>, step: P -> Result<Job>, actions: seq<Action>) {
    && |actions| <= |ps|
    && forall i :: 0 <= i < |actions| ==>
         step(ps[i]).Ok? && actions[i] == Decide(snapshot, step(ps[i]).value.key, step(ps[i]).value.cells)
  }

  /** The monthly loop, with the per-month work (fetch, extract, build the
      row) as `step`. It visits the months from January 2020 while they are
      before the first of the month after the last one, deciding each against
      the listing taken before the loop; the first failure ends it with that
      month's fault. */
  method SyncMonths(snapshot: seq<TableRow>, todayMonth: int, todayYear: int, step: MonthPeriod -> Result<Job>)
    returns (actions: seq<Action>, fault: Option<Fault>)
    requires 0 <= todayMonth < 12
    ensures var ps := MonthsToSync(todayMonth, todayYear);
      && DecidedAgainst(snapshot, ps, step, actions)
      && (fault.None? <==> |actions| == |ps|)
      && (fault.Some? ==> step(ps[|actions|]) == Err(fault.value))
  {
    ghost var ps := MonthsToSync(todayMonth, todayYear);
    var last := LastMonthToSync(todayMonth, todayYear);
    var target := FirstMonth;
    actions := [];
    fault := None;
    while Ordinal(target) < Ordinal(NextMonth(last))
      invariant Valid(target) && Ordinal(FirstMonth) <= Ordinal(target)
      invariant |actions| == Ordinal(target) - Ordinal(FirstMonth) <= |ps|
      invariant DecidedAgainst(snapshot, ps, step, actions)
      decreases Ordinal(NextMonth(last)) - Ordinal(target)
    {
      OrdinalInjective(target, ps[|actions|]);
      var job := step(target);
      if job.Err? {
        fault := Some(job.fault);
        break;
      }
      actions := actions + [Decide(snapshot, job.value.key, job.value.cells)];
      target := NextMonth(target);
    }
  }

  /** The yearly loop, with the per-year work as `step`: every year from 2016
      through this year, decided against the listing taken before the loop,
      stopping at the first failure. */
  method SyncYears(snapshot: seq<TableRow>, todayYear: int, step: int -> Result<Job>)
    returns (actions: seq<Action>, fault: Option<Fault>)
    ensures var ys := YearsToSync(todayYear);
      && DecidedAgainst(snapshot, ys, step, actions)
      && (fault.None? <==> |actions| == |ys|)
      && (fault.Some? ==> step(ys[|actions|]) == Err(fault.value))
  {
    ghost var ys := YearsToSync(todayYear);
    var year := FirstYear;
    actions := [];
    fault := None;
    while year <= todayYear
      invariant FirstYear <= year
      invariant |actions| == year - FirstYear <= |ys|
      invariant DecidedAgainst(snapshot, ys, step, actions)
      decreases todayYear - year
    {
      var job := step(year);
      if job.Err? {
        fault := Some(job.fault);
        break;
      }
      actions := actions + [Decide(snapshot, job.value.key, job.value.cells)];
      year := year + 1;
    }
  }

  /** Every prefix of the months a run visits holds valid, pairwise
      different months. */
  lemma MonthsPrefixDistinct(todayMonth: int, todayYear: int, n: nat)
    requires 0 <= todayMonth < 12 && n <= |MonthsToSync(todayMonth, todayYear)|
    ensures var ps := MonthsToSync(todayMonth, todayYear)[..n];
      && (forall i :: 0 <= i < |ps| ==> Valid(ps[i]))
      && (forall i, j :: 0 <= i < j < |ps| ==> ps[i] != ps[j])
  {
    MonthsContiguous(todayMonth, todayYear);
  }

  /** Actions decided against one listing, for jobs of pairwise different
      periods, are those of a run that re-lists the table before every job. */
  lemma DecidedRunIsLive<P>(snapshot: seq<TableRow>, ps: seq<P>, step: P -> Result<Job>,
                            actions: seq<Action>, jobs: seq<Job>)
    requires DecidedAgainst(snapshot, ps, step, actions)
    requires |jobs| == |actions|
    requires forall i :: 0 <= i < |jobs| ==> step(ps[i]) == Ok(jobs[i])
    requires DistinctJobs(jobs)
    ensures actions == LiveRun(snapshot, jobs)
  {
    StaleSnapshotSuffices(snapshot, jobs);
  }

  /** The months a run visits, each decided against the monthly listing, are
      the actions of a run that re-lists the table before every month. */
  lemma MonthlyRunNeedsNoRefresh(snapshot: seq<TableRow>, todayMonth: int, todayYear: int, fetch: Fetch, actions: seq<Action>)
    requires 0 <= todayMonth < 12
    requires DecidedAgainst(snapshot, MonthsToSync(todayMonth, todayYear), p => MonthJob(p, MonthReport(p, fetch)), actions)
    ensures var ps := MonthsToSync(todayMonth, todayYear)[..|actions|];
      MonthsSucceed(ps, fetch) && actions == LiveRun(snapshot, MonthJobs(ps, fetch))
  {
    var all := MonthsToSync(todayMonth, todayYear);
    var ps := all[..|actions|];
    MonthsPrefixDistinct(todayMonth, todayYear, |actions|);
    assert MonthsSucceed(ps, fetch) by {
      forall i | 0 <= i < |ps| ensures MonthJob(ps[i], MonthReport(ps[i], fetch)).Ok? {
        assert ps[i] == all[i];
      }
    }
    var jobs := MonthJobs(ps, fetch);
    MonthJobsDistinct(ps, fetch);
    DecidedRunIsLive(snapshot, all, p => MonthJob(p, MonthReport(p, fetch)), actions, jobs);
  }

  /** The same for the years a run visits and the yearly listing. */
  lemma YearlyRunNeedsNoRefresh(snapshot: seq<TableRow>, todayYear: int, fetch: Fetch, actions: seq<Action>)
    requires DecidedAgainst(snapshot, YearsToSync(todayYear), y => YearJob(y, YearReport(y, fetch)), actions)
    ensures var ys := YearsToSync(todayYear)[..|actions|];
      YearsSucceed(ys, fetch) && actions == LiveRun(snapshot, YearJobs(ys, fetch))
  {
    var all := YearsToSync(todayYear);
    var ys := all[..|actions|];
    var jobs := YearJobs(ys, fetch);
    YearJobsDistinct(ys, fetch);
    DecidedRunIsLive(snapshot, all, y => YearJob(y, YearReport(y, fetch)), actions, jobs);
  }

  /** The whole run: the monthly loop against the monthly listing, then the
      yearly loop against the yearly listing. A failure in the monthly loop
      ends the run before any year is fetched. */
  method Run(monthlySnapshot: seq<TableRow>, yearlySnapshot: seq<TableRow>,
             todayMonth: int, todayYear: int, fetch: Fetch)
    returns (monthly: seq<Action>, yearly: seq<Action>, fault: Option<Fault>)
    requires 0 <= todayMonth < 12
    ensures DecidedAgainst(monthlySnapshot, MonthsToSync(todayMonth, todayYear), p => MonthJob(p, MonthReport(p, fetch)), monthly)
    ensures DecidedAgainst(yearlySnapshot, YearsToSync(todayYear), y => YearJob(y, YearReport(y, fetch)), yearly)
    ensures |monthly| < |MonthsToSync(todayMonth, todayYear)| ==> yearly == [] && fault.Some?
    ensures |monthly| < |MonthsToSync(todayMonth, todayYear)| ==>
              var p := MonthsToSync(todayMonth, todayYear)[|monthly|];
              MonthJob(p, MonthReport(p, fetch)) == Err(fault.value)
    ensures |monthly| == |MonthsToSync(todayMonth, todayYear)| && fault.Some? ==>
              |yearly| < |YearsToSync(todayYear)|
              && var y := YearsToSync(todayYear)[|yearly|];
                 YearJob(y, YearReport(y, fetch)) == Err(fault.value)
    ensures fault.None? <==> |monthly| == |MonthsToSync(todayMonth, todayYear)| && |yearly| == |YearsToSync(todayYear)|
  {
    var monthFault;
    monthly, monthFault := SyncMonths(monthlySnapshot, todayMonth, todayYear, p => MonthJob(p, MonthReport(p, fetch)));
    if monthFault.Some? {
      return monthly, [], monthFault;
    }
    yearly, fault := SyncYears(yearlySnapshot, todayYear, y => YearJob(y, YearReport(y, fetch)));
  }

  /** The section found by `test` has a total with this title. */
  predicate TotalTitled(report: Report, test: GroupTest, title: string) {
    var found := FindGroup(report.rows, test);
    found.Some? && found.value.summary.Some? && found.value.summary.value.title == title
  }

  /** Where each yearly part's labels come from: the income part from the
      income total, the expenses part from the expenses total and the two
      expense accounts. */
  lemma YearlyPartSources(report: Report)
    requires YearlyParts(report).Ok?
    ensures var parts := YearlyParts(report).value;
      && (forall k :: k in parts[0] ==> TotalTitled(report, IgnoringCase("income"), k))
      && (forall k :: k in parts[2] ==>
            || TotalTitled(report, IgnoringCase("expenses"), k)
            || k == CarbonOffsetsAccount || k == CharitableDonationsAccount)
  {
  }

  /** Without a COGS section, the yearly categories come from the income
      total, the expenses total and the two expense accounts only. */
  lemma YearlyKeysWithoutCogs(report: Report, k: string)
    requires FindGroup(report.rows, IgnoringCase("cogs")).None?
    requires YearlyCategories(report).Ok? && k in YearlyCategories(report).value
    ensures || TotalTitled(report, IgnoringCase("income"), k)
            || TotalTitled(report, IgnoringCase("expenses"), k)
            || k == CarbonOffsetsAccount || k == CharitableDonationsAccount
  {
    YearlyPartSources(report);
  }

  /** Without a COGS section, a category other than the two expense accounts
      reads as zero unless the income or the expenses total carries it. */
  lemma CategoryZeroWithoutCogs(report: Report, cat: string)
    requires FindGroup(report.rows, IgnoringCase("cogs")).None?
    requires YearlyParts(report).Ok?
    requires cat != CarbonOffsetsAccount && cat != CharitableDonationsAccount
    ensures || AmountFor(YearlyCategories(report).value, cat) == Parsed("0")
            || TotalTitled(report, IgnoringCase("income"), cat)
            || TotalTitled(report, IgnoringCase("expenses"), cat)
  {
    if cat in YearlyCategories(report).value {
      YearlyKeysWithoutCogs(report, cat);
    }
  }

  /** A year whose report has no COGS section still writes its Gross COGS,
      Profit Share Pool and Reinvestment columns, as zero, unless the income
      or the expenses total happens to carry that column's category label. */
  lemma YearlyMissingCogsWritesZero(report: Report, year: int)
    requires FindGroup(report.rows, IgnoringCase("cogs")).None?
    requires YearlyParts(report).Ok?
    ensures var w := Written(YearlyRow(year, YearlyCategories(report).value));
      && (forall i :: 2 <= i < 7 && i != 4 && i != 5 ==>
            YearlyMappings[i].column in w
            && (|| w[YearlyMappings[i].column] == Parsed("0")
                || TotalTitled(report, IgnoringCase("income"), YearlyMappings[i].category)
                || TotalTitled(report, IgnoringCase("expenses"), YearlyMappings[i].category)))
  {
    var data := YearlyCategories(report).value;
    forall i | 2 <= i < 7 && i != 4 && i != 5
      ensures var w := Written(YearlyRow(year, data));
        && YearlyMappings[i].column in w
        && (|| w[YearlyMappings[i].column] == Parsed("0")
            || TotalTitled(report, IgnoringCase("income"), YearlyMappings[i].category)
            || TotalTitled(report, IgnoringCase("expenses"), YearlyMappings[i].category))
    {
      YearlyColumnReads(year, data, i);
      NotAnExpenseAccount(i);
      CategoryZeroWithoutCogs(report, YearlyMappings[i].category);
    }
  }

  /** One column of a yearly row reads back as its category's amount. */
  lemma YearlyColumnReads(year: int, data: CategoryMap, i: nat)
    requires i < |YearlyMappings|
    ensures var w := Written(YearlyRow(year, data));
      YearlyMappings[i].column in w && w[YearlyMappings[i].column] == AmountFor(data, YearlyMappings[i].category)
  {
    YearlyRowReadsBack(year, data);
  }

  /** The COGS, profit-share and reinvestment categories are neither of the
      two expense accounts. (`Signature` only separates the literals
      cheaply.) */
  lemma NotAnExpenseAccount(i: nat)
    requires i == 2 || i == 3 || i == 6
    ensures YearlyMappings[i].category != CarbonOffsetsAccount
    ensures YearlyMappings[i].category != CharitableDonationsAccount
  {
    assert Signature(CarbonOffsetsAccount) == ('[', 19, 't');
    assert Signature(CharitableDonationsAccount) == ('[', 25, 'n');
    assert Signature(YearlyMappings[2].category) == ('T', 24, 'l');
    assert Signature(YearlyMappings[3].category) == ('[', 33, 's');
    assert Signature(YearlyMappings[6].category) == ('[', 17, 'n');
  }
}

=== FILE: text.dfy ===
/** The string conversions the sync relies on: template-literal rendering of
    integers (`${n}`), `padStart`, and `toLowerCase` on group tags. */
module Text {

  predicate IsDigit(c: char) {
    '0' <= c <= '9'
  }

  predicate AllDigits(s: string) {
    forall i :: 0 <= i < |s| ==> IsDigit(s[i])
  }

  function DigitChar(d: nat): (c: char)
    requires d < 10
    ensures IsDigit(c) && DigitValue(c) == d
  {
    ('0' as int + d) as char
  }

  function DigitValue(c: char): int {
    c as int - '0' as int
  }

  /** Decimal rendering of a natural number, without leading zeros. */
  function NatToString(n: nat): (s: string)
    ensures |s| > 0 && AllDigits(s)
    ensures |s| > 1 ==> s[0] != '0'
  {
    if n < 10 then [DigitChar(n)] else NatToString(n / 10) + [DigitChar(n % 10)]
  }

  /** `${n}` for an integer: a minus sign, then the digits of the magnitude. */
  function IntToString(n: int): string {
    if n < 0 then "-" + NatToString(-n) else NatToString(n)
  }

  /** Reads a string of decimal digits back as a number. */
  function ParseDigits(s: string): nat
    requires AllDigits(s)
  {
    if |s| == 0 then 0 else ParseDigits(s[..|s| - 1]) * 10 + DigitValue(s[|s| - 1])
  }

  /** Rendering a number and reading it back gives the number. */
  lemma {:induction false} ParseNatToString(n: nat)
    ensures ParseDigits(NatToString(n)) == n
  {
    if n >= 10 {
      var s := NatToString(n);
      assert s[..|s| - 1] == NatToString(n / 10);
      ParseNatToString(n / 10);
    }
  }

  /** Distinct integers render as distinct strings. */
  lemma IntToStringInjective(a: int, b: int)
    requires IntToString(a) == IntToString(b)
    ensures a == b
  {
    if a < 0 && b < 0 {
      assert NatToString(-a) == IntToString(a)[1..];
      assert NatToString(-b) == IntToString(b)[1..];
      ParseNatToString(-a);
      ParseNatToString(-b);
    } else if a >= 0 && b >= 0 {
      ParseNatToString(a);
      ParseNatToString(b);
    }
  }

  /** `s.padStart(width, fill)`: `s` itself when long enough, otherwise `s`
      preceded by as many copies of `fill` as bring it to `width`. */
  function PadStart(s: string, width: nat, fill: char): (r: string)
    ensures |r| == if |s| >= width then |s| else width
    ensures r[|r| - |s|..] == s
    ensures forall i :: 0 <= i < |r| - |s| ==> r[i] == fill
  {
    if |s| >= width then s else seq(width - |s|, _ => fill) + s
  }

  function LowerChar(c: char): char {
    if 'A' <= c <= 'Z' then (c as int - 'A' as int + 'a' as int) as char else c
  }

  /** `toLowerCase` on the ASCII letters; every other character is kept. */
  function LowerAscii(s: string): string {
    if |s| == 0 then "" else [LowerChar(s[0])] + LowerAscii(s[1..])
  }

  /** Lowering keeps the length and lowers each character on its own. */
  lemma {:induction false} LowerAsciiSpec(s: string)
    ensures |LowerAscii(s)| == |s|
    ensures forall i :: 0 <= i < |s| ==> LowerAscii(s)[i] == LowerChar(s[i])
  {
    if |s| > 0 {
      LowerAsciiSpec(s[1..]);
      assert forall i :: 1 <= i < |s| ==> LowerAscii(s)[i] == LowerAscii(s[1..])[i - 1];
    }
  }
}

=== FILE: upsert.dfy ===
/** The row reconciler: find the period's row in the snapshot listed once
    per run, and update it or insert a new one. The table's own update and
    insert are modelled by `Apply` so that re-running and the stale snapshot
    can be reasoned about. */
module Upsert {
  import opened Results
  import opened FieldMap

  /** A destination row as listed at the start of a run: values by column. */
  datatype TableRow = TableRow(values: map<string, Value>)

  /** How a period's row is recognised. A monthly row is the one whose
      `Month` holds the label as text; a yearly row is the one whose `Year`
      holds the year as a number. Comparison is exact, type included, so a
      `Year` stored as text never matches. */
  datatype Key = MonthKey(title: string) | YearKey(year: int)

  function KeyColumn(k: Key): string {
    match k
    case MonthKey(_) => "Month"
    case YearKey(_) => "Year"
  }

  function KeyValue(k: Key): Value {
    match k
    case MonthKey(title) => Text(title)
    case YearKey(year) => Number(year)
  }

  predicate HasKey(r: TableRow, k: Key) {
    KeyColumn(k) in r.values && r.values[KeyColumn(k)] == KeyValue(k)
  }

  /** What the reconciler asks of the table: update the row at `index` of the
      snapshot with the cells, or insert one new row with them. */
  datatype Action = Update(index: nat, cells: seq<Cell>) | Insert(cells: seq<Cell>)

  /** `rows.find(r => r.values.Month === rowName)` (or `Year`): the index of
      the first snapshot row carrying the key. */
  function FirstWithKey(snapshot: seq<TableRow>, k: Key): (r: Option<nat>)
    ensures r.Some? ==> r.value < |snapshot| && HasKey(snapshot[r.value], k)
    ensures r.Some? ==> forall j :: 0 <= j < r.value ==> !HasKey(snapshot[j], k)
    ensures r.None? <==> forall j :: 0 <= j < |snapshot| ==> !HasKey(snapshot[j], k)
  {
    if |snapshot| == 0 then None
    else if HasKey(snapshot[0], k) then Some(0)
    else match FirstWithKey(snapshot[1..], k)
      case None => None
      case Some(i) => Some(i + 1)
  }

  /** Update the first row carrying the key with the full cell list, or, when
      no row carries it, insert exactly one row with that list. */
  function Decide(snapshot: seq<TableRow>, k: Key, cells: seq<Cell>): (a: Action)
    ensures a.cells == cells
    ensures a.Update? <==> exists i :: 0 <= i < |snapshot| && HasKey(snapshot[i], k)
    ensures a.Update? ==> a.index < |snapshot| && HasKey(snapshot[a.index], k)
                          && forall j :: 0 <= j < a.index ==> !HasKey(snapshot[j], k)
  {
    match FirstWithKey(snapshot, k)
    case Some(i) => Update(i, cells)
    case None => Insert(cells)
  }

  /** Whether to update or insert depends on the snapshot and the key only,
      never on the values being written. */
  lemma DecisionIgnoresValues(snapshot: seq<TableRow>, k: Key, c1: seq<Cell>, c2: seq<Cell>)
    ensures Decide(snapshot, k, c1).Update? <==> Decide(snapshot, k, c2).Update?
    ensures Decide(snapshot, k, c1).Update? ==> Decide(snapshot, k, c1).index == Decide(snapshot, k, c2).index
  {
  }

  /** The table's effect of an action: an update overwrites the given
      columns of that row and keeps its other columns; an insert appends a
      row holding the cells. */
  function Apply(table: seq<TableRow>, a: Action): (r: seq<TableRow>)
    ensures |r| == if a.Insert? then |table| + 1 else |table|
    ensures forall j :: 0 <= j < |table| && !(a.Update? && a.index == j) ==> r[j] == table[j]
  {
    match a
    case Update(i, cells) =>
      if i < |table| then table[i := TableRow(table[i].values + Written(cells))] else table
    case Insert(cells) => table + [TableRow(Written(cells))]
  }

  /** The cells write the key into its column. */
  predicate Carries(cells: seq<Cell>, k: Key) {
    KeyColumn(k) in Written(cells) && Written(cells)[KeyColumn(k)] == KeyValue(k)
  }

  /** The number of rows carrying the key. */
  function CountWithKey(table: seq<TableRow>, k: Key): nat {
    if |table| == 0 then 0
    else CountWithKey(table[..|table| - 1], k) + if HasKey(table[|table| - 1], k) then 1 else 0
  }

  lemma {:induction false} CountZero(table: seq<TableRow>, k: Key)
    ensures CountWithKey(table, k) == 0 <==> forall j :: 0 <= j < |table| ==> !HasKey(table[j], k)
  {
    if |table| > 0 {
      CountZero(table[..|table| - 1], k);
      assert forall j :: 0 <= j < |table| - 1 ==> table[..|table| - 1][j] == table[j];
    }
  }

  /** Replacing a row by one that agrees on carrying the key keeps the count. */
  lemma {:induction false} CountAfterReplace(table: seq<TableRow>, i: nat, x: TableRow, k: Key)
    requires i < |table| && HasKey(table[i], k) == HasKey(x, k)
    ensures CountWithKey(table[i := x], k) == CountWithKey(table, k)
  {
    var t := table[i := x];
    if i < |table| - 1 {
      assert t[..|t| - 1] == table[..|table| - 1][i := x];
      CountAfterReplace(table[..|table| - 1], i, x, k);
    } else {
      assert t[..|t| - 1] == table[..|table| - 1];
    }
  }

  /** One upsert leaves exactly one more row carrying the key when the
      snapshot had none, and the same rows otherwise. */
  lemma {:induction false} UpsertCount(snapshot: seq<TableRow>, k: Key, cells: seq<Cell>)
    requires Carries(cells, k)
    ensures var t := Apply(snapshot, Decide(snapshot, k, cells));
            && CountWithKey(t, k) == (if CountWithKey(snapshot, k) == 0 then 1 else CountWithKey(snapshot, k))
            && |t| == |snapshot| + (if CountWithKey(snapshot, k) == 0 then 1 else 0)
            && exists i :: 0 <= i < |t| && HasKey(t[i], k)
  {
    var a := Decide(snapshot, k, cells);
    var t := Apply(snapshot, a);
    CountZero(snapshot, k);
    if a.Update? {
      CountAfterReplace(snapshot, a.index, TableRow(snapshot[a.index].values + Written(cells)), k);
      assert HasKey(t[a.index], k);
    } else {
      assert t[..|t| - 1] == snapshot;
      assert HasKey(t[|snapshot|], k);
    }
  }

  /** Upserting from a snapshot and then upserting again with the same key,
      as the next run would: the first run leaves exactly one row carrying
      the key when there was none and the same rows otherwise; the second run
      updates rather than inserts, adds no row, and the updated row then
      holds every value the second run wrote. The row it updates is the one
      the first run updated, or the one it appended. */
  lemma UpsertIdempotent(snapshot: seq<TableRow>, k: Key, first: seq<Cell>, second: seq<Cell>)
    requires Carries(first, k) && Carries(second, k)
    ensures var t1 := Apply(snapshot, Decide(snapshot, k, first));
            var a2 := Decide(t1, k, second);
            var t2 := Apply(t1, a2);
            && a2.Update?
            && a2.index == (if Decide(snapshot, k, first).Update? then Decide(snapshot, k, first).index else |snapshot|)
            && CountWithKey(t1, k) == (if CountWithKey(snapshot, k) == 0 then 1 else CountWithKey(snapshot, k))
            && CountWithKey(t2, k) == CountWithKey(t1, k)
            && |t2| == |t1| == |snapshot| + (if CountWithKey(snapshot, k) == 0 then 1 else 0)
            && forall c :: c in Written(second) ==> t2[a2.index].values[c] == Written(second)[c]
  {
    UpsertCount(snapshot, k, first);
    var t1 := Apply(snapshot, Decide(snapshot, k, first));
    var a1 := Decide(snapshot, k, first);
    if a1.Update? {
      assert HasKey(t1[a1.index], k);
    } else {
      assert t1[|snapshot|] == TableRow(Written(first));
    }
    var i2 := Decide(t1, k, second).index;
    CountAfterReplace(t1, i2, TableRow(t1[i2].values + Written(second)), k);
  }

  /** Two tables that agree on which of the first `|s|` rows carry the key,
      where the longer one's extra rows do not, find the same first row. */
  lemma FirstWithKeyAgrees(s: seq<TableRow>, t: seq<TableRow>, k: Key)
    requires |s| <= |t|
    requires forall j :: 0 <= j < |s| ==> (HasKey(s[j], k) <==> HasKey(t[j], k))
    requires forall j :: |s| <= j < |t| ==> !HasKey(t[j], k)
    ensures FirstWithKey(s, k) == FirstWithKey(t, k)
  {
  }

  /** Keys of one table (same column) that name different periods. */
  predicate DifferentPeriods(k1: Key, k2: Key) {
    KeyColumn(k1) == KeyColumn(k2) && KeyValue(k1) != KeyValue(k2)
  }

  /** Upserting one period leaves the lookup of any other period unchanged:
      the updated row carries the first period's key and the inserted row
      too, so neither can be the other period's row, before or after. */
  lemma StaleLookupUnaffected(snapshot: seq<TableRow>, k1: Key, cells: seq<Cell>, k2: Key)
    requires Carries(cells, k1) && DifferentPeriods(k1, k2)
    ensures FirstWithKey(Apply(snapshot, Decide(snapshot, k1, cells)), k2) == FirstWithKey(snapshot, k2)
  {
    var a := Decide(snapshot, k1, cells);
    var t := Apply(snapshot, a);
    if a.Insert? {
      assert t[|snapshot|] == TableRow(Written(cells));
    }
    FirstWithKeyAgrees(snapshot, t, k2);
  }

  /** One period's work: its key and the cells of its row. */
  datatype Job = Job(key: Key, cells: seq<Cell>)

  /** The actions of a run that re-read the table before every period. */
  function LiveRun(table: seq<TableRow>, jobs: seq<Job>): seq<Action>
    decreases |jobs|
  {
    if |jobs| == 0 then []
    else
      var a := Decide(table, jobs[0].key, jobs[0].cells);
      [a] + LiveRun(Apply(table, a), jobs[1..])
  }

  /** The actions of a run that decides every job against one snapshot. */
  function StaleRun(snapshot: seq<TableRow>, jobs: seq<Job>): (r: seq<Action>)
    ensures |r| == |jobs|
    ensures forall i :: 0 <= i < |jobs| ==> r[i] == Decide(snapshot, jobs[i].key, jobs[i].cells)
  {
    seq(|jobs|, i requires 0 <= i < |jobs| => Decide(snapshot, jobs[i].key, jobs[i].cells))
  }

  /** Jobs of one table for pairwise different periods, each writing its key. */
  predicate DistinctJobs(jobs: seq<Job>) {
    && (forall i :: 0 <= i < |jobs| ==> Carries(jobs[i].cells, jobs[i].key))
    && (forall i, j :: 0 <= i < j < |jobs| ==> DifferentPeriods(jobs[i].key, jobs[j].key))
  }

  /** Deciding every job against the snapshot listed once at the start of the
      run takes the same actions as re-reading the table before every job,
      provided the jobs are for pairwise different periods. */
  lemma StaleSnapshotSuffices(snapshot: seq<TableRow>, jobs: seq<Job>)
    requires DistinctJobs(jobs)
    ensures LiveRun(snapshot, jobs) == StaleRun(snapshot, jobs)
  {
    LiveRunFrom(snapshot, snapshot, jobs);
  }

  lemma DistinctJobsTail(jobs: seq<Job>)
    requires DistinctJobs(jobs) && |jobs| > 0
    ensures DistinctJobs(jobs[1..])
  {
    var rest := jobs[1..];
    forall i, j | 0 <= i < j < |rest| ensures DifferentPeriods(rest[i].key, rest[j].key) {
      assert rest[i] == jobs[i + 1] && rest[j] == jobs[j + 1];
    }
  }

  /** After the first job is applied, the lookups of the remaining jobs still
      agree with the snapshot. */
  lemma LookupsSurviveFirstJob(snapshot: seq<TableRow>, table: seq<TableRow>, jobs: seq<Job>)
    requires DistinctJobs(jobs) && |jobs| > 0
    requires forall i :: 0 <= i < |jobs| ==> FirstWithKey(table, jobs[i].key) == FirstWithKey(snapshot, jobs[i].key)
    ensures var next := Apply(table, Decide(table, jobs[0].key, jobs[0].cells));
            var rest := jobs[1..];
            forall i :: 0 <= i < |rest| ==> FirstWithKey(next, rest[i].key) == FirstWithKey(snapshot, rest[i].key)
  {
    var rest := jobs[1..];
    forall i | 0 <= i < |rest|
      ensures FirstWithKey(Apply(table, Decide(table, jobs[0].key, jobs[0].cells)), rest[i].key)
              == FirstWithKey(snapshot, rest[i].key)
    {
      assert rest[i] == jobs[i + 1];
      StaleLookupUnaffected(table, jobs[0].key, jobs[0].cells, jobs[i + 1].key);
    }
  }

  /** The stale run of a non-empty job list is its first decision followed by
      the stale run of the rest. */
  lemma StaleRunFirst(snapshot: seq<TableRow>, jobs: seq<Job>)
    requires |jobs| > 0
    ensures StaleRun(snapshot, jobs) == [Decide(snapshot, jobs[0].key, jobs[0].cells)] + StaleRun(snapshot, jobs[1..])
  {
  }

  lemma {:induction false} LiveRunFrom(snapshot: seq<TableRow>, table: seq<TableRow>, jobs: seq<Job>)
    requires DistinctJobs(jobs)
    requires forall i :: 0 <= i < |jobs| ==> FirstWithKey(table, jobs[i].key) == FirstWithKey(snapshot, jobs[i].key)
    ensures LiveRun(table, jobs) == StaleRun(snapshot, jobs)
    decreases |jobs|
  {
    if |jobs| > 0 {
      var a := Decide(table, jobs[0].key, jobs[0].cells);
      assert a == Decide(snapshot, jobs[0].key, jobs[0].cells);
      LookupsSurviveFirstJob(snapshot, table, jobs);
      DistinctJobsTail(jobs);
      LiveRunFrom(snapshot, Apply(table, a), jobs[1..]);
      StaleRunFirst(snapshot, jobs);
    }
  }
}
